=== FILE: README.md ===
# clarity demo reader and integer property decoder, modelled in Dafny

This project models two parts of the clarity replay parser for Dota 2 / Source
engine demo files.

**The demo reader** (`InputSourceProcessor`):
- It checks the eight-byte `PBUFDEM\0` header and reads the little-endian
  file-info offset.
- It then walks the top-level frames `varint kind | varint tick | varint size |
  size bytes`:
  - it clears the compression bits from the kind;
  - it raises TickEnd/TickStart whenever a frame's tick differs from the
    current one;
  - it skips or reads each payload.
- Container frames (`CDemoPacket`, `CDemoSendTables`) are unpacked at once.
  Their embedded messages `varint kind | varint size | bytes` are read until
  the bytes run out or a zero kind appears. When a listener wants a
  user-message class, user-message wrappers are unwrapped.
- What the reader raises is kept as an ordered event log.
- Module `Demo` states, as pure functions, what one pass raises (`StreamRun`,
  `FramesFrom`, `FrameStep`, `FrameBody`, `UnpackFrom`, `EmbeddedStep`,
  `EmbeddedBody`).
- Class `Reader.InputSourceProcessor` holds the cursor, the current tick, the
  `unpackUserMessages` flag and the log. Its loops are proved to raise exactly
  those events and to leave the cursor and tick where those functions say.
- Module `Properties` proves what the reader promises about those functions.
- Module `Wire` holds the byte-level reads of the protocol-buffers
  CodedInputStream (varint, fixed32, raw bytes, skip), with round-trip lemmas
  against their encoders.

**The integer property decoder** (`IntDecoder.decode`) is modelled over `bv32`
in module `IntDecoder`. A Java int is its 32-bit pattern:
- `Value` is the number the pattern stands for when read as unsigned;
- `ToInt` is the number it stands for as a Java int.

The bit stream is a function that answers the one read the decoder makes.

## Model

| member | source | states |
|---|---|---|
| `Wire.ReadVarint32` | src/main/java/skadistats/clarity/processor/reader/InputSourceProcessor.java:56-60 | a varint read consumes between 1 and 10 bytes, all inside the input |
| `Wire.VarintRoundTrip` | src/main/java/skadistats/clarity/processor/reader/InputSourceProcessor.java:56-60 | reading back the varint encoding of any 32-bit word gives that word and consumes exactly the encoding, whatever follows |
| `Wire.ReadFixed32` | src/main/java/skadistats/clarity/processor/reader/InputSourceProcessor.java:53 | a fixed32 read succeeds exactly when four bytes remain, and consumes four |
| `Wire.Fixed32RoundTrip` | src/main/java/skadistats/clarity/processor/reader/InputSourceProcessor.java:53 | reading back the little-endian encoding of any word gives that word |
| `Wire.Skip` | src/main/java/skadistats/clarity/processor/reader/InputSourceProcessor.java:70 | skipping succeeds exactly when the size is non-negative as a Java int and that many bytes remain; it then advances by exactly the size; otherwise it names the error |
| `Wire.ReadBytes` | src/main/java/skadistats/clarity/processor/reader/InputSourceProcessor.java:38 | a raw read succeeds and fails exactly as the skip does; it returns exactly the `size` bytes at the cursor |
| `Wire.CodedInput.constructor` | src/main/java/skadistats/clarity/processor/reader/InputSourceProcessor.java:47 | a new cursor is at the start of its bytes |
| `Wire.CodedInput.IsAtEnd` | src/main/java/skadistats/clarity/processor/reader/InputSourceProcessor.java:55 | true exactly when every byte has been consumed |
| `Wire.CodedInput.ReadRawVarint32` | src/main/java/skadistats/clarity/processor/reader/InputSourceProcessor.java:56 | returns the varint at the cursor and moves the cursor past it, or returns the read's error |
| `Wire.CodedInput.ReadRawFixed32` | src/main/java/skadistats/clarity/processor/reader/InputSourceProcessor.java:53 | returns the fixed32 at the cursor and moves the cursor four bytes, or returns the error |
| `Wire.CodedInput.ReadRawBytes` | src/main/java/skadistats/clarity/processor/reader/InputSourceProcessor.java:38 | returns the `size` bytes at the cursor and moves past them, or returns the error |
| `Wire.CodedInput.SkipRawBytes` | src/main/java/skadistats/clarity/processor/reader/InputSourceProcessor.java:70 | moves the cursor by exactly `size`, or returns the error |
| `Demo.SplitKind` | src/main/java/skadistats/clarity/processor/reader/InputSourceProcessor.java:56-58 | the frame is compressed exactly when all compression bits are set in the raw kind; the kind used for lookup has those bits clear and agrees with the raw kind on every other bit |
| `Demo.ReadFrameHeader` | src/main/java/skadistats/clarity/processor/reader/InputSourceProcessor.java:56-60 | a frame header takes at least three bytes (its layout is fixed by `Properties.FrameHeaderRoundTrip`) |
| `Demo.ReadPacket` | src/main/java/skadistats/clarity/processor/reader/InputSourceProcessor.java:37-43 | a packet read fails with the skip's error when `size` bytes cannot be skipped; otherwise it returns exactly those `size` bytes when the frame is not compressed, and when it is, their decompression, failing with BadCompression exactly when the decompressor rejects them; it consumes exactly the bytes the skip would |
| `Demo.Parse` | src/main/java/skadistats/clarity/processor/reader/InputSourceProcessor.java:72 | parsing fails exactly when the parser rejects the bytes |
| `Demo.SkipPayload` | src/main/java/skadistats/clarity/processor/reader/InputSourceProcessor.java:69-70 | skipping a payload raises exactly the events given to it; it succeeds exactly when the skip of `size` bytes does, and then the cursor is exactly `size` bytes further on |
| `Demo.EmbeddedBody` | src/main/java/skadistats/clarity/processor/reader/InputSourceProcessor.java:102-124 | an embedded message never raises tick events; when it succeeds the cursor is exactly `size` bytes further on (its branches are stated by `Properties.EmbeddedSkipped`, `Properties.EmbeddedListenedRaised` and `Properties.UserMessageUnwrapped`) |
| `Demo.EmbeddedStep` | src/main/java/skadistats/clarity/processor/reader/InputSourceProcessor.java:95-105 | a zero kind raises nothing and fails nothing; any other sub-frame that succeeds advances the cursor by at least two bytes, so the embedded loop ends |
| `Demo.UnpackFrom` | src/main/java/skadistats/clarity/processor/reader/InputSourceProcessor.java:94-127 | unpacking a container raises no tick events |
| `Demo.Unpack` | src/main/java/skadistats/clarity/processor/reader/InputSourceProcessor.java:93-127 | unpacking a container from its first byte raises no tick events; `Properties.UnpackNoContainers` and `Properties.UnpackSentinel` state the rest |
| `Demo.FrameBody` | src/main/java/skadistats/clarity/processor/reader/InputSourceProcessor.java:67-88 | a frame's payload raises no tick events; when it succeeds the cursor is exactly `size` bytes past the header |
| `Demo.TickBoundary` | src/main/java/skadistats/clarity/processor/reader/InputSourceProcessor.java:61-66 | no contract of its own; `Properties.FrameTickBoundary` states that a frame raises TickEnd of the current tick then TickStart of its own exactly when the two differ |
| `Demo.ContainerBody` | src/main/java/skadistats/clarity/processor/reader/InputSourceProcessor.java:71-76 | a container raises no tick events; when it succeeds it consumes exactly `size` bytes |
| `Demo.MessageBody` | src/main/java/skadistats/clarity/processor/reader/InputSourceProcessor.java:80-84 | a listened message raises no tick events; when it succeeds it consumes exactly `size` bytes |
| `Demo.FrameStep` | src/main/java/skadistats/clarity/processor/reader/InputSourceProcessor.java:55-89 | a frame that succeeds advances the cursor by at least three bytes, so the top-level loop ends on every finite input |
| `Demo.FramesFrom` | src/main/java/skadistats/clarity/processor/reader/InputSourceProcessor.java:55-90 | no contract of its own; `Properties.FramesClose`, `Properties.FramesAlternate` and `Properties.ListenersKeepTicks` state what the top-level loop and its final TickEnd raise |
| `Demo.StreamRun` | src/main/java/skadistats/clarity/processor/reader/InputSourceProcessor.java:46-91 | no contract of its own; `Properties.HeaderRejected`, `Properties.StreamOpening`, `Properties.StreamCloses` and `Properties.StreamTicks` state what a whole pass raises and how it fails |
| `Reader.InputSourceProcessor.constructor` | src/main/java/skadistats/clarity/processor/reader/InputSourceProcessor.java:28-29 | no stream yet, `unpackUserMessages` clear, empty log, and the flag invariant `FlagJustified` holds |
| `Reader.InputSourceProcessor.InitOnMessageListener` | src/main/java/skadistats/clarity/processor/reader/InputSourceProcessor.java:31-35 | for a listener of a listened class, the flag becomes set once a listener wants a user-message class, a set flag stays set, and the flag is set only when some listened class is in the user-message table (`FlagJustified` is kept) |
| `Reader.InputSourceProcessor.ReadPacket` | src/main/java/skadistats/clarity/processor/reader/InputSourceProcessor.java:37-43 | returns and consumes what `Demo.ReadPacket` says: the `size` raw bytes at the cursor, decompressed when flagged; or the same error |
| `Reader.InputSourceProcessor.ProcessStream` | src/main/java/skadistats/clarity/processor/reader/InputSourceProcessor.java:46-91 | appends to the log exactly the events of `Demo.StreamRun`, ends at its tick, and fails exactly when it fails, with the same error |
| `Reader.InputSourceProcessor.ProcessFrames` | src/main/java/skadistats/clarity/processor/reader/InputSourceProcessor.java:55-90 | the top-level loop and the final TickEnd append exactly the events of `Demo.FramesFrom` from the cursor |
| `Reader.InputSourceProcessor.ProcessFrame` | src/main/java/skadistats/clarity/processor/reader/InputSourceProcessor.java:56-88 | one iteration appends the events of `Demo.FrameStep`, sets the tick to the frame's tick and leaves the cursor after the frame |
| `Reader.InputSourceProcessor.ReadFrameHeader` | src/main/java/skadistats/clarity/processor/reader/InputSourceProcessor.java:56-60 | reads the three varints and splits the kind as `Demo.ReadFrameHeader` does |
| `Reader.InputSourceProcessor.ProcessFrameBody` | src/main/java/skadistats/clarity/processor/reader/InputSourceProcessor.java:67-88 | handles the payload as `Demo.FrameBody` says: skipped, unpacked as a container, or raised |
| `Reader.InputSourceProcessor.ProcessContainer` | src/main/java/skadistats/clarity/processor/reader/InputSourceProcessor.java:71-76 | reads, parses and raises the container, then unpacks it, as `Demo.ContainerBody` says |
| `Reader.InputSourceProcessor.ProcessMessage` | src/main/java/skadistats/clarity/processor/reader/InputSourceProcessor.java:80-84 | reads, parses and raises one listened message, as `Demo.MessageBody` says |
| `Reader.InputSourceProcessor.ProcessEmbedded` | src/main/java/skadistats/clarity/processor/reader/InputSourceProcessor.java:93-127 | the embedded loop appends exactly the events of `Demo.Unpack` and fails exactly when it does |
| `Reader.InputSourceProcessor.ProcessSubFrame` | src/main/java/skadistats/clarity/processor/reader/InputSourceProcessor.java:95-105 | one iteration appends the events of `Demo.EmbeddedStep` and reports whether it read the zero kind |
| `Reader.InputSourceProcessor.ProcessEmbeddedMessage` | src/main/java/skadistats/clarity/processor/reader/InputSourceProcessor.java:102-124 | handles one embedded message as `Demo.EmbeddedBody` says |
| `Reader.InputSourceProcessor.SkipBytes` | src/main/java/skadistats/clarity/processor/reader/InputSourceProcessor.java:129-131 | moves the stream's cursor by exactly `numBytes`, or fails |
| `Properties.HeaderRejected` | src/main/java/skadistats/clarity/processor/reader/InputSourceProcessor.java:49-52 | when the first eight bytes are missing or are not `PBUFDEM\0`, the pass fails before the offset is read and raises nothing |
| `Properties.Fixed32Bytes` | src/main/java/skadistats/clarity/processor/reader/InputSourceProcessor.java:53 | the fixed32 read at a position is the word whose little-endian bytes are the four bytes there |
| `Properties.StreamOpening` | src/main/java/skadistats/clarity/processor/reader/InputSourceProcessor.java:53-54 | a stream with the right header starts with the FileInfoOffset of the word at bytes 8 to 11, then TickStart of the initial tick |
| `Properties.StreamCloses` | src/main/java/skadistats/clarity/processor/reader/InputSourceProcessor.java:90 | a pass that ends normally ends with TickEnd of the tick current at the end |
| `Properties.FramesClose` | src/main/java/skadistats/clarity/processor/reader/InputSourceProcessor.java:55-90 | the frame loop that ends normally always ends with that TickEnd |
| `Properties.FrameTickBoundary` | src/main/java/skadistats/clarity/processor/reader/InputSourceProcessor.java:61-66 | a frame raises TickEnd(current), TickStart(its tick) first, and no other tick event, exactly when its tick differs; its tick becomes current either way |
| `Properties.FramesAlternate` | src/main/java/skadistats/clarity/processor/reader/InputSourceProcessor.java:55-90 | the tick events of every frame loop alternate, each new tick differing from the previous one; a normal end closes the last tick and a failure leaves it open |
| `Properties.StreamTicks` | src/main/java/skadistats/clarity/processor/reader/InputSourceProcessor.java:54-90 | over a whole stream, TickStart and TickEnd alternate from TickStart(tick0); a normal end has equal counts, a failure one more TickStart |
| `Properties.FrameSkipped` | src/main/java/skadistats/clarity/processor/reader/InputSourceProcessor.java:67-87 | unknown kinds, full packets and unlistened kinds skip exactly `size` bytes; they raise no message, only the warning for an unknown kind |
| `Properties.ContainerRaised` | src/main/java/skadistats/clarity/processor/reader/InputSourceProcessor.java:71-76 | a container frame is read and raised whether or not anyone listens, followed by its unpacked messages |
| `Properties.ContainerRaisedOnce` | src/main/java/skadistats/clarity/processor/reader/InputSourceProcessor.java:71-76 | a container frame raises exactly one container event |
| `Properties.UncompressedPacket` | src/main/java/skadistats/clarity/processor/reader/InputSourceProcessor.java:37-43 | an uncompressed payload never reaches the decompressor: the read is the same whatever the decompressor does |
| `Properties.CompressionFailureEndsPass` | src/main/java/skadistats/clarity/processor/reader/InputSourceProcessor.java:39-41 | a compressed container or listened frame whose payload the decompressor rejects raises only its tick boundary, and the whole pass stops there with BadCompression |
| `Properties.ListenedRaised` | src/main/java/skadistats/clarity/processor/reader/InputSourceProcessor.java:80-84 | a listened kind that is neither a container nor a full packet raises exactly one OnMessage of the parsed payload, or fails when the parse fails |
| `Properties.UnpackNoContainers` | src/main/java/skadistats/clarity/processor/reader/InputSourceProcessor.java:94-127 | unpacking a container never raises a container event |
| `Properties.UnpackSentinel` | src/main/java/skadistats/clarity/processor/reader/InputSourceProcessor.java:96-100 | a zero kind ends the unpacking with nothing raised, whatever follows it |
| `Properties.FrameHeaderRoundTrip` | src/main/java/skadistats/clarity/processor/reader/InputSourceProcessor.java:56-60 | reading back the bytes `varint kind, varint tick, varint size` gives that kind with its compression bits split off, that tick and that size, in that order, and consumes exactly those bytes |
| `Properties.SubFrameHeaderRoundTrip` | src/main/java/skadistats/clarity/processor/reader/InputSourceProcessor.java:96-101 | reading back the bytes `varint kind, varint size` of a non-zero kind handles the message of that kind and size right after them |
| `Properties.ListenersKeepTicks` | src/main/java/skadistats/clarity/processor/reader/InputSourceProcessor.java:61-87 | which classes are listened to, and so whether user messages are unpacked, changes what is raised but not the framing: two passes that differ in the listened set and in the unpack flag, and both end normally, raise the same tick events and end at the same tick |
| `Properties.EmbeddedSkipped` | src/main/java/skadistats/clarity/processor/reader/InputSourceProcessor.java:102-124 | unknown kinds, and unlistened kinds that are not unwrapped, skip exactly `size` bytes and raise no message |
| `Properties.EmbeddedListenedRaised` | src/main/java/skadistats/clarity/processor/reader/InputSourceProcessor.java:107-111 | a listened embedded kind that is not a user message to unwrap raises exactly one OnMessage of the parsed payload and consumes exactly `size` bytes; a rejected payload fails with BadMessage and an unreadable one with the read's error, raising nothing |
| `Properties.UserMessageUnwrapped` | src/main/java/skadistats/clarity/processor/reader/InputSourceProcessor.java:106-121 | when unwrapping, the wrapper is read and parsed whether or not it is listened to; a failed read or a rejected wrapper ends the pass with nothing raised; otherwise the wrapper is raised exactly when listened, and the inner message is raised exactly when its type is in the user-message table, a missing type being warned about |
| `Properties.UserMessageKept` | src/main/java/skadistats/clarity/processor/reader/InputSourceProcessor.java:108-113 | without unwrapping, a listened wrapper is raised as it is and nothing inside it is |
| `IntDecoder.Decode` | src/main/java/skadistats/clarity/decoder/prop/IntDecoder.java:15-27 | the read made is a varint when the property is encoded against the tick count, otherwise exactly `numBits` raw bits |
| `IntDecoder.DecodeReadsOnce` | src/main/java/skadistats/clarity/decoder/prop/IntDecoder.java:10-30 | exactly one read per call: two streams that give the same answer to that read decode to the same value, whatever they answer to any other read |
| `IntDecoder.Finish` | src/main/java/skadistats/clarity/decoder/prop/IntDecoder.java:19-29 | no contract of its own; `IntDecoder.TickCountUnsigned`, `IntDecoder.TickCountSigned`, `IntDecoder.FixedUnsigned` and `IntDecoder.FixedSigned` state its value on each path |
| `IntDecoder.ZigZagDecode` | src/main/java/skadistats/clarity/decoder/prop/IntDecoder.java:24 | no contract of its own; `IntDecoder.ZigZagDecodeEncode`, `IntDecoder.ZigZagEncodeDecode` and `IntDecoder.ZigZagMeaning` state that it inverts sint32 ZigZag encoding |
| `IntDecoder.SignMask` | src/main/java/skadistats/clarity/decoder/prop/IntDecoder.java:14-28 | no contract of its own; `IntDecoder.SignMaskValue` states that it is 0 when unsigned and bit `numBits - 1` when signed |
| `IntDecoder.TickCountUnsigned` | src/main/java/skadistats/clarity/decoder/prop/IntDecoder.java:15-21 | unsigned tick-count values are the varint unchanged |
| `IntDecoder.TickCountSigned` | src/main/java/skadistats/clarity/decoder/prop/IntDecoder.java:15-24 | signed tick-count values are the ZigZag decoding of the varint, whatever `numBits` is, and encoding the result gives back the varint |
| `IntDecoder.ZigZagDecodeEncode` | src/main/java/skadistats/clarity/decoder/prop/IntDecoder.java:24 | decoding undoes sint32 ZigZag encoding for every 32-bit word |
| `IntDecoder.ZigZagEncodeDecode` | src/main/java/skadistats/clarity/decoder/prop/IntDecoder.java:24 | ZigZag encoding undoes the decoding for every 32-bit word |
| `IntDecoder.ZigZagMeaning` | src/main/java/skadistats/clarity/decoder/prop/IntDecoder.java:24 | an even word 2k decodes to the Java int k; an odd word 2k+1 decodes to -(k+1) |
| `IntDecoder.ZigZagExamples` | src/main/java/skadistats/clarity/decoder/prop/IntDecoder.java:24 | 0, 1, 2, 3, 4 decode to 0, -1, 1, -2, 2 |
| `IntDecoder.SignMaskValue` | src/main/java/skadistats/clarity/decoder/prop/IntDecoder.java:14-28 | the mask `s` is 0 for unsigned properties and `1 << (numBits - 1)` for signed ones |
| `IntDecoder.FixedUnsigned` | src/main/java/skadistats/clarity/decoder/prop/IntDecoder.java:27-29 | unsigned fixed-width values are the raw bits, and a field of `numBits` bits then lies in [0, 2^numBits) as an unsigned number |
| `IntDecoder.SignedRead` | src/main/java/skadistats/clarity/decoder/prop/IntDecoder.java:27-29 | signed fixed-width values are `(v ^ s) - s`, with `s` the top bit of the field |
| `IntDecoder.FixedNegative` | src/main/java/skadistats/clarity/decoder/prop/IntDecoder.java:27-29 | a signed field with its top bit set is decoded to `v - 2^numBits`, which lies in [-2^(numBits-1), 0) |
| `IntDecoder.FixedNonNegative` | src/main/java/skadistats/clarity/decoder/prop/IntDecoder.java:27-29 | a signed field with its top bit clear is decoded to `v`, which lies in [0, 2^(numBits-1)) |
| `IntDecoder.FixedSigned` | src/main/java/skadistats/clarity/decoder/prop/IntDecoder.java:27-29 | signed fixed-width values are the two's-complement sign extension of the `numBits` raw bits, and lie in [-2^(numBits-1), 2^(numBits-1)) |
| `IntDecoder.FourBitExamples` | src/main/java/skadistats/clarity/decoder/prop/IntDecoder.java:27-29 | the four bits 1111 decode to -1 when signed and to 15 when unsigned |

## Left out

- Snappy decompression and protobuf parsing are foreign code. They are the
  function-valued fields `decompress` and `parse` of `Demo.Registry`, and
  either may fail. The parsed message is reduced to the fields the reader
  reads (`getData`, `getMsgType`, `getMsgData`).
- `PacketTypes.DEMO`, `EMBED` and `USERMSG` are not part of this model. They
  are abstract maps in `Demo.Registry`; the message classes the reader names
  are constructors of `Demo.MessageClass`.
- The event framework (`Context`, `Event`, `EventListener` and the
  annotations) is not part of this model:
  - raising an event is appending it to the log;
  - whether an event is listened to is membership in `Registry.listened`;
  - the OnMessageContainer hop to `processEmbedded` is a direct call;
  - `setParameterClasses` (line 33) only configures the framework and is
    left out.
- Logging: `log.warn` becomes an `UnknownKind` event, so the warnings can be
  stated about.
- `CodedInputStream` construction, `setSizeLimit` and the `InputStream`:
  - the stream is a byte sequence read in full;
  - its size limits and buffering are not modelled;
  - the platform-charset `String` comparison of the header is byte equality
    with `PBUFDEM\0`.
- The initial tick of the context is a constructor parameter; `Source` is not
  part of this model.
- `Demo.EDemoCommands.DEM_IsCompressed` is not part of this model. The value
  112 is taken from the demo protocol's `EDemoCommands` enum. The code tests
  that all of its bits are set, and the model follows the code.
- `processEmbedded` has no handler for a truncated container payload: a read
  past the end of a container is not tolerated and ends the whole pass with
  that error, as in the code.
- `BitStream` is not part of this model. Its `readVarInt` and
  `readNumericBits` become the `stream` function of `IntDecoder.Decode`, which
  answers the one read made.
- `PropFlag` is not part of this model:
  - `UNSIGNED` is fixed at 1, the value the decoder relies on as both a mask
    and a shift amount;
  - `ENCODED_AGAINST_TICKCOUNT` is taken as `1 << 19`, and no property depends
    on it beyond being a different bit.
- `numBits == 0` is not modelled. It relies on Java masking the shift count of
  `>>> 32`; the fixed-width path requires 1 to 32.
- IntDecoder.FixedUnsigned: states the value as an unsigned number. For
  `numBits == 32` with the top bit set, the Java int returned is negative.
- `Reader.InputSourceProcessor` splits `processStream` and `processEmbedded`
  into one method per loop iteration and per branch, so that each can be
  proved against its function in `Demo`. Together they raise the events, move
  the cursor and fail as `processStream` and `processEmbedded` do.
- Errors are `Wire.Result` values, not exceptions. The exception message text
  is not modelled.

=== FILE: demo.dfy ===
/** The demo-stream reader as values: what one pass over a demo file raises,
    frame by frame, given the lookup tables of message kinds, the set of
    message classes someone listens to, and the message parser and the
    decompressor, which stay abstract. The reader class in module Reader is
    proved to raise exactly these events. */
module Demo {
  import opened Wire

  /** EDemoCommands.DEM_IsCompressed: the bits a compressed top-level frame
      sets in its kind. */
  const IsCompressed: bv32 := 112

  /** "PBUFDEM" followed by a NUL byte. */
  const Magic: seq<bv8> := [0x50, 0x42, 0x55, 0x46, 0x44, 0x45, 0x4D, 0x00]

  /** The message classes the reader treats specially; every other class of
      the three kind tables is an `Other`. */
  datatype MessageClass =
    | DemoPacket      // CDemoPacket: a container of embedded messages
    | DemoSendTables  // CDemoSendTables: a container of embedded messages
    | DemoFullPacket  // CDemoFullPacket: always skipped
    | UserMessage     // CSVCMsg_UserMessage: a wrapper around a user message
    | Other(id: nat)

  predicate IsContainer(c: MessageClass) { c.DemoPacket? || c.DemoSendTables? }

  /** The parts of a parsed message the reader looks at: the embedded bytes
      of a container, and the inner type and bytes of a user message. */
  datatype Message = Message(data: seq<bv8>, msgType: bv32, msgData: seq<bv8>)

  /** The three kind tables. */
  datatype Namespace = TopLevel | Embedded | UserMessages

  /** What the reader raises, in order; `UnknownKind` stands for its warning
      about a kind missing from a table. */
  datatype Event =
    | FileInfoOffset(offset: bv32)
    | TickStart(tick: bv32)
    | TickEnd(tick: bv32)
    | MessageContainer(data: seq<bv8>)
    | OnMessage(cls: MessageClass, msg: Message)
    | UnknownKind(ns: Namespace, kind: bv32)

  predicate IsTickEvent(e: Event) { e.TickStart? || e.TickEnd? }

  /** The collaborators the reader consults and never changes: the kind
      tables (PacketTypes.DEMO, EMBED, USERMSG), the classes someone listens
      to, the protobuf parser and the Snappy decompressor, either of which may
      fail. */
  datatype Registry = Registry(
    demo: map<bv32, MessageClass>,
    embed: map<bv32, MessageClass>,
    usermsg: map<bv32, MessageClass>,
    listened: set<MessageClass>,
    parse: (MessageClass, seq<bv8>) -> Option<Message>,
    decompress: seq<bv8> -> Option<seq<bv8>>)

  /** The header of a top-level frame: kind (compression bits cleared),
      whether the payload is compressed, tick and payload size. */
  datatype FrameHeader = FrameHeader(kind: bv32, compressed: bool, tick: bv32, size: bv32)

  /** Separates the compression bits from a raw top-level kind. */
  function SplitKind(raw: bv32): (r: (bv32, bool))
    ensures r.0 & IsCompressed == 0
    ensures r.0 | (raw & IsCompressed) == raw
    ensures r.1 <==> raw & IsCompressed == IsCompressed
  {
    (raw & !IsCompressed, raw & IsCompressed == IsCompressed)
  }

  /** Reads `varint kind | varint tick | varint size`. */
  function ReadFrameHeader(input: seq<bv8>, pos: nat): (r: Result<(FrameHeader, nat)>)
    ensures r.Ok? ==> pos + 3 <= r.value.1 <= |input|
  {
    var (raw, p1) :- ReadVarint32(input, pos);
    var (tick, p2) :- ReadVarint32(input, p1);
    var (size, p3) :- ReadVarint32(input, p2);
    var (kind, compressed) := SplitKind(raw);
    Ok((FrameHeader(kind, compressed, tick, size), p3))
  }

  /** readPacket: `size` bytes, decompressed when the frame says so. */
  function ReadPacket(reg: Registry, input: seq<bv8>, pos: nat, size: bv32, compressed: bool): (r: Result<(seq<bv8>, nat)>)
    ensures r.Ok? ==> Skip(input, pos, size).Ok? && r.value.1 == Skip(input, pos, size).value
    ensures var k := Skip(input, pos, size);
            && (k.Err? ==> r == Err(k.error))
            && (k.Ok? && !compressed ==> r == Ok((input[pos..k.value], k.value)))
            && (k.Ok? && compressed ==>
                  var unpacked := reg.decompress(input[pos..k.value]);
                  && (r.Ok? <==> unpacked.Some?)
                  && (r.Ok? ==> r.value.0 == unpacked.value)
                  && (r.Err? ==> r.error == BadCompression))
  {
    var (raw, end) :- ReadBytes(input, pos, size);
    if !compressed then Ok((raw, end))
    else match reg.decompress(raw)
      case None => Err(BadCompression)
      case Some(data) => Ok((data, end))
  }

  /** PacketTypes.parse. */
  function Parse(reg: Registry, cls: MessageClass, bytes: seq<bv8>): (r: Result<Message>)
    ensures r.Ok? <==> reg.parse(cls, bytes).Some?
  {
    match reg.parse(cls, bytes)
    case None => Err(BadMessage)
    case Some(m) => Ok(m)
  }

  /** What the handling of one frame's payload raised, where the cursor is
      afterwards, and the error that ended the pass, if any. */
  datatype Step = Step(events: seq<Event>, pos: nat, failure: Option<Error>)

  predicate NoTicks(evs: seq<Event>) { forall e :: e in evs ==> !IsTickEvent(e) }

  /** Skips a payload after raising `before`. */
  function SkipPayload(input: seq<bv8>, pos: nat, size: bv32, before: seq<Event>): (s: Step)
    ensures s.events == before
    ensures s.failure.None? <==> Skip(input, pos, size).Ok?
    ensures s.failure.None? ==> s.pos == pos + size as int <= |input|
  {
    match Skip(input, pos, size)
    case Err(e) => Step(before, pos, Some(e))
    case Ok(end) => Step(before, end, None)
  }

  /** One embedded message of kind `kind` whose `size` bytes start at `pos`. */
  function EmbeddedBody(reg: Registry, unpack: bool, data: seq<bv8>, pos: nat, kind: bv32, size: bv32): (s: Step)
    ensures s.failure.None? ==> s.pos == pos + size as int <= |data|
    ensures NoTicks(s.events)
  {
    if kind !in reg.embed then SkipPayload(data, pos, size, [UnknownKind(Embedded, kind)])
    else
      var cls := reg.embed[kind];
      var listened := cls in reg.listened;
      var unwrap := unpack && cls.UserMessage?;
      if !(listened || unwrap) then SkipPayload(data, pos, size, [])
      else match ReadBytes(data, pos, size)
        case Err(e) => Step([], pos, Some(e))
        case Ok((bytes, end)) =>
          match Parse(reg, cls, bytes)
          case Err(e) => Step([], end, Some(e))
          case Ok(msg) =>
            var wrapper := if listened then [OnMessage(cls, msg)] else [];
            if !unwrap then Step(wrapper, end, None)
            else if msg.msgType !in reg.usermsg then
              Step(wrapper + [UnknownKind(UserMessages, msg.msgType)], end, None)
            else
              var inner := reg.usermsg[msg.msgType];
              match Parse(reg, inner, msg.msgData)
              case Err(e) => Step(wrapper, end, Some(e))
              case Ok(m) => Step(wrapper + [OnMessage(inner, m)], end, None)
  }

  /** What unpacking a container raised, and the error that ended it, if any. */
  datatype Unpacked = Unpacked(events: seq<Event>, failure: Option<Error>)

  /** One iteration of the embedded loop: what it raised, where the cursor
      is afterwards, the error that ended the pass, if any, and whether it
      read the zero kind that ends a container. */
  datatype SubFrame = SubFrame(events: seq<Event>, pos: nat, failure: Option<Error>, sentinel: bool)

  /** The sub-frame `varint kind | varint size | size bytes` at `pos`; a zero
      kind stops before any size is read. */
  function EmbeddedStep(reg: Registry, unpack: bool, data: seq<bv8>, pos: nat): (f: SubFrame)
    ensures f.failure.None? && !f.sentinel ==> pos + 2 <= f.pos <= |data|
    ensures f.sentinel ==> f.events == [] && f.failure.None?
    ensures NoTicks(f.events)
  {
    match ReadVarint32(data, pos)
    case Err(e) => SubFrame([], pos, Some(e), false)
    case Ok((kind, p1)) =>
      if kind == 0 then SubFrame([], p1, None, true)
      else match ReadVarint32(data, p1)
        case Err(e) => SubFrame([], p1, Some(e), false)
        case Ok((size, p2)) =>
          var s := EmbeddedBody(reg, unpack, data, p2, kind, size);
          SubFrame(s.events, s.pos, s.failure, false)
  }

  /** processEmbedded from position `pos` of the container's bytes: sub-frames
      until the bytes run out or a kind of zero. */
  function UnpackFrom(reg: Registry, unpack: bool, data: seq<bv8>, pos: nat): (u: Unpacked)
    requires pos <= |data|
    decreases |data| - pos
    ensures NoTicks(u.events)
  {
    if pos == |data| then Unpacked([], None)
    else
      var f := EmbeddedStep(reg, unpack, data, pos);
      if f.failure.Some? then Unpacked(f.events, f.failure)
      else if f.sentinel then Unpacked([], None)
      else
        var rest := UnpackFrom(reg, unpack, data, f.pos);
        Unpacked(f.events + rest.events, rest.failure)
  }

  function Unpack(reg: Registry, unpack: bool, data: seq<bv8>): (u: Unpacked)
    ensures NoTicks(u.events)
  {
    UnpackFrom(reg, unpack, data, 0)
  }

  lemma AppendAssoc(a: seq<Event>, b: seq<Event>, c: seq<Event>)
    ensures a + (b + c) == (a + b) + c
  {
  }

  /** The payload of a top-level frame whose header `h` ends at `pos`. */
  function FrameBody(reg: Registry, unpack: bool, input: seq<bv8>, pos: nat, h: FrameHeader): (s: Step)
    ensures s.failure.None? ==> s.pos == pos + h.size as int <= |input|
    ensures NoTicks(s.events)
  {
    if h.kind !in reg.demo then SkipPayload(input, pos, h.size, [UnknownKind(TopLevel, h.kind)])
    else
      var cls := reg.demo[h.kind];
      if IsContainer(cls) then ContainerBody(reg, unpack, input, pos, cls, h.size, h.compressed)
      else if cls.DemoFullPacket? || cls !in reg.listened then SkipPayload(input, pos, h.size, [])
      else MessageBody(reg, input, pos, cls, h.size, h.compressed)
  }

  /** A container frame: its payload is read, parsed and raised, and the
      messages inside it are unpacked at once. */
  function ContainerBody(reg: Registry, unpack: bool, input: seq<bv8>, pos: nat, cls: MessageClass,
                         size: bv32, compressed: bool): (s: Step)
    ensures s.failure.None? ==> s.pos == pos + size as int <= |input|
    ensures NoTicks(s.events)
  {
    match ReadPacket(reg, input, pos, size, compressed)
    case Err(e) => Step([], pos, Some(e))
    case Ok((bytes, end)) =>
      match Parse(reg, cls, bytes)
      case Err(e) => Step([], end, Some(e))
      case Ok(msg) =>
        var inner := Unpack(reg, unpack, msg.data);
        Step([MessageContainer(msg.data)] + inner.events, end, inner.failure)
  }

  /** A container whose payload is read and parsed is its message followed by
      what unpacking that message gives. */
  lemma ContainerBodyParsed(reg: Registry, unpack: bool, input: seq<bv8>, pos: nat, cls: MessageClass,
                            size: bv32, compressed: bool, bytes: seq<bv8>, end: nat, msg: Message)
    requires ReadPacket(reg, input, pos, size, compressed) == Ok((bytes, end))
    requires Parse(reg, cls, bytes) == Ok(msg)
    ensures var inner := Unpack(reg, unpack, msg.data);
            ContainerBody(reg, unpack, input, pos, cls, size, compressed)
            == Step([MessageContainer(msg.data)] + inner.events, end, inner.failure)
  {
  }

  /** A listened frame: its payload is read, parsed and raised. */
  function MessageBody(reg: Registry, input: seq<bv8>, pos: nat, cls: MessageClass,
                       size: bv32, compressed: bool): (s: Step)
    ensures s.failure.None? ==> s.pos == pos + size as int <= |input|
    ensures NoTicks(s.events)
  {
    match ReadPacket(reg, input, pos, size, compressed)
    case Err(e) => Step([], pos, Some(e))
    case Ok((bytes, end)) =>
      match Parse(reg, cls, bytes)
      case Err(e) => Step([], end, Some(e))
      case Ok(msg) => Step([OnMessage(cls, msg)], end, None)
  }

  /** The tick events raised when a frame of tick `next` arrives while the
      current tick is `current`. */
  function TickBoundary(current: bv32, next: bv32): seq<Event>
  {
    if next != current then [TickEnd(current), TickStart(next)] else []
  }

  /** One iteration of the top-level loop. */
  datatype Frame = Frame(events: seq<Event>, pos: nat, tick: bv32, failure: Option<Error>)

  function FrameStep(reg: Registry, unpack: bool, input: seq<bv8>, pos: nat, tick: bv32): (f: Frame)
    ensures f.failure.None? ==> pos + 3 <= f.pos <= |input|
  {
    match ReadFrameHeader(input, pos)
    case Err(e) => Frame([], pos, tick, Some(e))
    case Ok((h, p)) =>
      var body := FrameBody(reg, unpack, input, p, h);
      Frame(TickBoundary(tick, h.tick) + body.events, body.pos, h.tick, body.failure)
  }

  /** What a pass raised, the current tick at its end, and the error that
      ended it, if any. */
  datatype Run = Run(events: seq<Event>, tick: bv32, failure: Option<Error>)

  /** The top-level loop from position `pos` with current tick `tick`,
      including the final tick end. */
  function FramesFrom(reg: Registry, unpack: bool, input: seq<bv8>, pos: nat, tick: bv32): (r: Run)
    requires pos <= |input|
    decreases |input| - pos
  {
    if pos == |input| then Run([TickEnd(tick)], tick, None)
    else
      var f := FrameStep(reg, unpack, input, pos, tick);
      if f.failure.Some? then Run(f.events, f.tick, f.failure)
      else
        var rest := FramesFrom(reg, unpack, input, f.pos, f.tick);
        Run(f.events + rest.events, rest.tick, rest.failure)
  }

  /** processStream over the bytes of a demo file, starting at tick `tick0`. */
  function StreamRun(reg: Registry, unpack: bool, tick0: bv32, input: seq<bv8>): (r: Run)
  {
    match ReadBytes(input, 0, 8)
    case Err(e) => Run([], tick0, Some(e))
    case Ok((header, p)) =>
      if header != Magic then Run([], tick0, Some(BadHeader))
      else match ReadFixed32(input, p)
        case Err(e) => Run([], tick0, Some(e))
        case Ok((offset, q)) =>
          var frames := FramesFrom(reg, unpack, input, q, tick0);
          Run([FileInfoOffset(offset), TickStart(tick0)] + frames.events, frames.tick, frames.failure)
  }
}

=== FILE: intdecoder.dfy ===
/** IntDecoder.decode: a 32-bit integer property value, read from the bit
    stream either as a varint (properties encoded against the tick count)
    or as `numBits` raw bits, and then sign-adjusted. A Java int is modelled
    as its bit pattern, a `bv32`; `Value` is the number the pattern stands
    for read as unsigned, `ToInt` the number it stands for as a Java int. */
module IntDecoder {

  /** PropFlag.UNSIGNED. The decoder uses it both as a mask and as a shift
      amount of one. */
  const Unsigned: bv32 := 1
  /** PropFlag.ENCODED_AGAINST_TICKCOUNT. */
  const EncodedAgainstTickCount: bv32 := 0x8_0000

  /** The descriptor of a property: its width in bits and its flags. */
  datatype Prop = Prop(numBits: bv32, flags: bv32)

  /** The one read the decoder makes from the bit stream. */
  datatype BitRead = VarInt | NumericBits(count: bv32)

  /** The read that was made and the value returned. */
  datatype Decoded = Decoded(read: BitRead, value: bv32)

  predicate IsUnsigned(prop: Prop) { prop.flags & Unsigned != 0 }

  predicate IsTickCount(prop: Prop) { prop.flags & EncodedAgainstTickCount != 0 }

  /** The signed tick-count decoding: `(-(v & 1)) ^ (v >>> 1)`. */
  function ZigZagDecode(v: bv32): bv32
  {
    (-(v & Unsigned)) ^ (v >> Unsigned)
  }

  /** The mask `s` of the fixed-width path: `0x80000000 >>> (32 - numBits)`,
      kept when the property is signed (`selfUnsigned - UNSIGNED` is then all
      ones) and cleared when it is unsigned. */
  function SignMask(prop: Prop): bv32
    requires 1 <= prop.numBits <= 32
  {
    var selfUnsigned: bv32 := if IsUnsigned(prop) then Unsigned else 0;
    (0x8000_0000 >> (32 - prop.numBits)) & (selfUnsigned - Unsigned)
  }

  /** The one read the decoder makes: a varint when the property is encoded
      against the tick count, otherwise `numBits` raw bits. */
  function ReadOf(prop: Prop): BitRead
  {
    if IsTickCount(prop) then VarInt else NumericBits(prop.numBits)
  }

  /** What the decoder returns once the read gave `v`. The width is only
      looked at, and must be 1 to 32, when the value was read as raw bits. */
  function Finish(prop: Prop, v: bv32): bv32
    requires !IsTickCount(prop) ==> 1 <= prop.numBits <= 32
  {
    if IsTickCount(prop) then
      if IsUnsigned(prop) then v else ZigZagDecode(v)
    else
      var s := SignMask(prop);
      (v ^ s) - s
  }

  /** decode: `stream` answers the read the decoder makes, and the value
      returned depends on that answer alone. */
  function Decode(prop: Prop, stream: BitRead -> bv32): (d: Decoded)
    requires !IsTickCount(prop) ==> 1 <= prop.numBits <= 32
    ensures IsTickCount(prop) ==> d.read == VarInt
    ensures !IsTickCount(prop) ==> d.read == NumericBits(prop.numBits)
  {
    var r := ReadOf(prop);
    Decoded(r, Finish(prop, stream(r)))
  }

  /** Exactly one read: two streams that give the same answer to the read
      `Decode` reports decode to the same value, whatever they answer to any
      other read. */
  lemma DecodeReadsOnce(prop: Prop, stream: BitRead -> bv32, other: BitRead -> bv32)
    requires !IsTickCount(prop) ==> 1 <= prop.numBits <= 32
    requires other(Decode(prop, stream).read) == stream(Decode(prop, stream).read)
    ensures Decode(prop, other) == Decode(prop, stream)
  {
  }

  // ---------------------------------------------------------------------
  // The numbers a bit pattern stands for

  /** 2^k, and 1 for k below zero. */
  function Pow2(k: int): (p: nat)
    ensures 1 <= p
  {
    if k <= 0 then 1 else 2 * Pow2(k - 1)
  }

  lemma Pow2Step(n: bv32)
    requires 1 <= n <= 32
    ensures Pow2(n as int) == 2 * Pow2(n as int - 1)
  {
    assert 1 <= n as int;
  }

  /** 2^32, the number of 32-bit words. */
  const Modulus: nat := 0x1_0000_0000

  lemma {:induction false} Pow2Add(a: nat, b: nat)
    ensures Pow2(a + b) == Pow2(a) * Pow2(b)
  {
    if a > 0 {
      Pow2Add(a - 1, b);
    }
  }

  lemma Pow2Word()
    ensures Pow2(32) == Modulus
  {
    assert Pow2(2) == 4;
    Pow2Add(2, 2);
    Pow2Add(4, 4);
    Pow2Add(8, 8);
    Pow2Add(16, 16);
  }

  /** The lowest bit of `x`, as a number. */
  function Bit0(x: bv32): nat { if x & 1 == 0 then 0 else 1 }

  /** `x` shifted right by one, a zero entering at the top. */
  function Half(x: bv32): bv32 { x >> 1 }

  /** The number the low `k` bits of `x` stand for. */
  function Bits(x: bv32, k: nat): nat
  {
    if k == 0 then 0 else Bit0(x) + 2 * Bits(Half(x), k - 1)
  }

  /** The number `x` stands for, read as unsigned. */
  function Value(x: bv32): nat
  {
    Bits(x, 32)
  }

  /** The top bit, the sign of a Java int. */
  predicate TopBit(x: bv32) { x & 0x8000_0000 != 0 }

  /** The number a Java int with the bit pattern `x` stands for. */
  function ToInt(x: bv32): int
  {
    if TopBit(x) then Value(x) - Modulus else Value(x)
  }

  /** The low `n` bits set, the others clear. */
  function LowMask(n: bv32): bv32
    requires n <= 32
  {
    !(0xFFFF_FFFF << n)
  }

  /** `x` has no bit set at or above bit `n`. */
  predicate Fits(x: bv32, n: bv32)
    requires n <= 32
  {
    x & !LowMask(n) == 0
  }

  /** Bit `n - 1` alone. */
  function SignBit(n: bv32): bv32
    requires 1 <= n <= 32
  {
    (1 as bv32) << (n - 1)
  }

  predicate Disjoint(x: bv32, y: bv32) { x & y == 0 }

  function Or(x: bv32, y: bv32): bv32 { x | y }

  lemma Unfold(x: bv32, k: nat)
    requires k > 0
    ensures Bits(x, k) == Bit0(x) + 2 * Bits(Half(x), k - 1)
  {
  }

  lemma {:induction false} ZeroBits(k: nat)
    ensures Bits(0, k) == 0
  {
    if k > 0 {
      ZeroHalf();
      ZeroBits(k - 1);
    }
  }

  lemma ZeroHalf()
    ensures Half(0) == 0 && Bit0(0) == 0
  {
  }

  /** Patterns with no bit in common add up. */
  lemma {:induction false} DisjointBits(x: bv32, y: bv32, k: nat)
    requires Disjoint(x, y)
    ensures Bits(Or(x, y), k) == Bits(x, k) + Bits(y, k)
  {
    if k > 0 {
      DisjointHalves(x, y);
      DisjointBits(Half(x), Half(y), k - 1);
      DisjointUnfold(x, y, k);
    }
  }

  lemma DisjointHalves(x: bv32, y: bv32)
    requires Disjoint(x, y)
    ensures Disjoint(Half(x), Half(y))
  {
  }

  lemma DisjointUnfold(x: bv32, y: bv32, k: nat)
    requires Disjoint(x, y) && k > 0
    requires Bits(Or(Half(x), Half(y)), k - 1) == Bits(Half(x), k - 1) + Bits(Half(y), k - 1)
    ensures Bits(Or(x, y), k) == Bits(x, k) + Bits(y, k)
  {
    DisjointStep(x, y);
  }

  lemma DisjointStep(x: bv32, y: bv32)
    requires Disjoint(x, y)
    ensures Half(Or(x, y)) == Or(Half(x), Half(y))
    ensures Bit0(Or(x, y)) == Bit0(x) + Bit0(y)
  {
  }

  /** The low `n` bits stand for 2^n - 1. */
  lemma {:induction false} LowMaskBits(n: bv32, k: nat)
    requires n <= 32 && n as int <= k
    ensures Bits(LowMask(n), k) == Pow2(n as int) - 1
    decreases k
  {
    if n == 0 {
      LowMaskZero();
      ZeroBits(k);
    } else {
      LowMaskStep(n);
      LowMaskBits(n - 1, k - 1);
      Unfold(LowMask(n), k);
    }
  }

  lemma LowMaskZero()
    ensures LowMask(0) == 0
  {
  }

  lemma LowMaskStep(n: bv32)
    requires 1 <= n <= 32
    ensures Bit0(LowMask(n)) == 1
    ensures Half(LowMask(n)) == LowMask(n - 1)
    ensures (n - 1) as int == n as int - 1
  {
  }

  /** Bits at or above bit `n` add nothing when they are clear. */
  lemma {:induction false} FitsBits(x: bv32, n: bv32, k: nat)
    requires n <= 32 && n as int <= k && Fits(x, n)
    ensures Bits(x, k) == Bits(x, n as int)
    decreases n
  {
    if n == 0 {
      FitsZero(x);
      ZeroBits(k);
    } else {
      FitsStep(x, n);
      FitsBits(Half(x), n - 1, k - 1);
      Unfold(x, k);
      Unfold(x, n as int);
    }
  }

  lemma FitsZero(x: bv32)
    requires Fits(x, 0)
    ensures x == 0
  {
  }

  lemma FitsStep(x: bv32, n: bv32)
    requires 1 <= n <= 32 && Fits(x, n)
    ensures Fits(Half(x), n - 1)
    ensures (n - 1) as int == n as int - 1
  {
  }

  /** A pattern within the low `n` bits stands for less than 2^n. */
  lemma FitsBelow(x: bv32, n: bv32)
    requires n <= 32 && Fits(x, n)
    ensures Value(x) < Pow2(n as int)
  {
    var rest := LowMask(n) & !x;
    FitsSplit(x, n);
    DisjointBits(x, rest, 32);
    LowMaskBits(n, 32);
  }

  lemma FitsSplit(x: bv32, n: bv32)
    requires n <= 32 && Fits(x, n)
    ensures Disjoint(x, LowMask(n) & !x) && Or(x, LowMask(n) & !x) == LowMask(n)
  {
  }

  /** All 32 bits set stand for 2^32 - 1. */
  lemma AllOnes()
    ensures Value(LowMask(32)) == Modulus - 1
  {
    LowMaskBits(32, 32);
    Pow2Word();
  }

  /** The complement of a pattern stands for 2^32 - 1 less the pattern. */
  lemma ComplementValue(x: bv32)
    ensures Value(!x) == Modulus - 1 - Value(x)
  {
    ComplementSplit(x);
    DisjointBits(x, !x, 32);
    AllOnes();
  }

  lemma ComplementSplit(x: bv32)
    ensures Disjoint(x, !x) && Or(x, !x) == LowMask(32)
  {
  }

  /** Bit `n - 1` alone stands for 2^(n-1). */
  lemma SignBitValue(n: bv32)
    requires 1 <= n <= 32
    ensures Value(SignBit(n)) == Pow2(n as int - 1)
  {
    SignBitSplit(n);
    DisjointBits(SignBit(n), LowMask(n - 1), 32);
    LowMaskBits(n, 32);
    LowMaskBits(n - 1, 32);
  }

  lemma SignBitSplit(n: bv32)
    requires 1 <= n <= 32
    ensures Disjoint(SignBit(n), LowMask(n - 1)) && Or(SignBit(n), LowMask(n - 1)) == LowMask(n)
    ensures (n - 1) as int == n as int - 1
  {
  }

  // ---------------------------------------------------------------------
  // The tick-count path

  /** The ZigZag encoding of protocol buffers' sint32: `(n << 1) ^ (n >> 31)`
      with an arithmetic right shift. */
  function ZigZagEncode(n: bv32): bv32
  {
    (n << 1) ^ (if TopBit(n) then 0xFFFF_FFFF else 0)
  }

  /** Unsigned tick-count values are returned as read. */
  lemma TickCountUnsigned(prop: Prop, stream: BitRead -> bv32)
    requires IsTickCount(prop) && IsUnsigned(prop)
    ensures Decode(prop, stream) == Decoded(VarInt, stream(VarInt))
  {
  }

  /** Signed tick-count values are ZigZag decoded, whatever the width. */
  lemma TickCountSigned(prop: Prop, stream: BitRead -> bv32, numBits: bv32)
    requires IsTickCount(prop) && !IsUnsigned(prop)
    ensures Decode(prop, stream) == Decode(Prop(numBits, prop.flags), stream)
    ensures Decode(prop, stream) == Decoded(VarInt, ZigZagDecode(stream(VarInt)))
    ensures ZigZagEncode(Decode(prop, stream).value) == stream(VarInt)
  {
    ZigZagEncodeDecode(stream(VarInt));
  }

  /** Decoding undoes encoding, for every 32-bit word. */
  lemma ZigZagDecodeEncode(n: bv32)
    ensures ZigZagDecode(ZigZagEncode(n)) == n
  {
    if TopBit(n) {
      ZigZagNegative(n);
    } else {
      ZigZagNonNegative(n);
    }
  }

  lemma ZigZagNonNegative(n: bv32)
    requires !TopBit(n)
    ensures ZigZagDecode(ZigZagEncode(n)) == n
  {
  }

  lemma ZigZagNegative(n: bv32)
    requires TopBit(n)
    ensures ZigZagDecode(ZigZagEncode(n)) == n
  {
  }

  /** Encoding undoes decoding, for every 32-bit word. */
  lemma ZigZagEncodeDecode(v: bv32)
    ensures ZigZagEncode(ZigZagDecode(v)) == v
  {
  }

  /** What ZigZag decoding means: even words stand for the non-negative
      numbers and odd words for the negative ones, interleaved by magnitude. */
  lemma ZigZagMeaning(v: bv32)
    ensures Value(v) % 2 == 0 ==> ToInt(ZigZagDecode(v)) == Value(v) / 2
    ensures Value(v) % 2 == 1 ==> ToInt(ZigZagDecode(v)) == -((Value(v) + 1) / 2)
  {
    var y, w := Half(v), ZigZagDecode(v);
    ValueHalves(v, y);
    if Bit0(v) == 0 {
      ZigZagEvenValue(v, y, w);
    } else {
      ZigZagOddValue(v, y, w);
    }
  }

  lemma ZigZagEvenValue(v: bv32, y: bv32, w: bv32)
    requires Bit0(v) == 0 && y == Half(v) && w == ZigZagDecode(v)
    ensures ToInt(w) == Value(y)
  {
    ZigZagEven(v, y, w);
  }

  lemma ZigZagOddValue(v: bv32, y: bv32, w: bv32)
    requires Bit0(v) == 1 && y == Half(v) && w == ZigZagDecode(v)
    ensures ToInt(w) == -1 - Value(y)
  {
    ZigZagOdd(v, y, w);
    NegativeComplement(y);
  }

  /** The complement of a word is one below the negated word, when the
      complement's top bit is set. */
  lemma NegativeComplement(y: bv32)
    requires TopBit(!y)
    ensures ToInt(!y) == -1 - Value(y)
  {
    ComplementValue(y);
  }

  /** A word is twice its upper 31 bits plus its lowest bit. */
  lemma ValueHalves(v: bv32, y: bv32)
    requires y == Half(v)
    ensures Value(v) == Bit0(v) + 2 * Value(y)
  {
    Unfold(v, 32);
    HalfFits(v);
    FitsBits(y, 31, 32);
  }

  lemma HalfFits(v: bv32)
    ensures Fits(Half(v), 31) && !TopBit(Half(v))
  {
  }

  lemma ZigZagEven(v: bv32, y: bv32, w: bv32)
    requires Bit0(v) == 0 && y == Half(v) && w == ZigZagDecode(v)
    ensures w == y && !TopBit(w)
  {
  }

  lemma ZigZagOdd(v: bv32, y: bv32, w: bv32)
    requires Bit0(v) == 1 && y == Half(v) && w == ZigZagDecode(v)
    ensures w == !y && TopBit(w)
  {
  }

  lemma ZigZagExamples()
    ensures ToInt(ZigZagDecode(0)) == 0
    ensures ToInt(ZigZagDecode(1)) == -1
    ensures ToInt(ZigZagDecode(2)) == 1
    ensures ToInt(ZigZagDecode(3)) == -2
    ensures ToInt(ZigZagDecode(4)) == 2
  {
    SmallValues();
    ZigZagMeaning(0);
    ZigZagMeaning(1);
    ZigZagMeaning(2);
    ZigZagMeaning(3);
    ZigZagMeaning(4);
  }

  lemma SmallValues()
    ensures Value(0) == 0 && Value(1) == 1 && Value(2) == 2 && Value(3) == 3 && Value(4) == 4
  {
    ZeroBits(32);
    FitsBits(1, 3, 32);
    FitsBits(2, 3, 32);
    FitsBits(3, 3, 32);
    FitsBits(4, 3, 32);
  }

  // ---------------------------------------------------------------------
  // The fixed-width path

  /** Signed fixed-width values are `(v ^ s) - s` with `s` the sign bit of
      the field. */
  lemma SignedRead(prop: Prop, stream: BitRead -> bv32)
    requires !IsTickCount(prop) && !IsUnsigned(prop) && 1 <= prop.numBits <= 32
    ensures var v := stream(NumericBits(prop.numBits));
            var s := SignBit(prop.numBits);
            Decode(prop, stream) == Decoded(NumericBits(prop.numBits), (v ^ s) - s)
  {
    SignMaskValue(prop);
  }

  /** The mask is clear for unsigned properties and is bit `numBits - 1` for
      signed ones. */
  lemma SignMaskValue(prop: Prop)
    requires 1 <= prop.numBits <= 32
    ensures IsUnsigned(prop) ==> SignMask(prop) == 0
    ensures !IsUnsigned(prop) ==> SignMask(prop) == SignBit(prop.numBits)
  {
  }

  /** Unsigned fixed-width values are the raw bits; a field of `numBits`
      bits is then below 2^numBits. */
  lemma FixedUnsigned(prop: Prop, stream: BitRead -> bv32)
    requires !IsTickCount(prop) && IsUnsigned(prop) && 1 <= prop.numBits <= 32
    ensures var v := stream(NumericBits(prop.numBits));
            && Decode(prop, stream) == Decoded(NumericBits(prop.numBits), v)
            && (Fits(v, prop.numBits) ==> Value(Decode(prop, stream).value) < Pow2(prop.numBits as int))
  {
    var v := stream(NumericBits(prop.numBits));
    var d := Decode(prop, stream);
    SignMaskValue(prop);
    assert d == Decoded(NumericBits(prop.numBits), v);
    if Fits(v, prop.numBits) {
      FitsBelow(d.value, prop.numBits);
    }
  }

  /** `(v ^ s) - s` with `s` the sign bit of an `n`-bit field whose sign bit
      is clear: the field as it is. */
  lemma SignClear(v: bv32, n: bv32)
    requires 1 <= n <= 32 && Fits(v, n) && v & SignBit(n) == 0
    ensures (v ^ SignBit(n)) - SignBit(n) == v
    ensures Fits(v, n - 1) && !TopBit(v)
  {
  }

  /** `(v ^ s) - s` with the sign bit set: the bits above the field are set. */
  lemma SignSet(v: bv32, n: bv32)
    requires 1 <= n <= 32 && Fits(v, n) && v & SignBit(n) != 0
    ensures (v ^ SignBit(n)) - SignBit(n) == Or(v, !LowMask(n))
  {
  }

  lemma SignSetParts(v: bv32, n: bv32)
    requires 1 <= n <= 32 && Fits(v, n) && v & SignBit(n) != 0
    ensures Disjoint(v, !LowMask(n)) && TopBit(Or(v, !LowMask(n)))
    ensures Disjoint(SignBit(n), v & !SignBit(n)) && Or(SignBit(n), v & !SignBit(n)) == v
  {
  }

  lemma HighValue(n: bv32)
    requires n <= 32
    ensures Value(!LowMask(n)) == Modulus - Pow2(n as int)
  {
    ComplementValue(LowMask(n));
    LowMaskBits(n, 32);
  }

  /** Sign extension of an `n`-bit field whose top bit is clear: the field,
      below 2^(n-1). */
  lemma ExtendClear(v: bv32, n: bv32, w: bv32)
    requires 1 <= n <= 32 && Fits(v, n) && v & SignBit(n) == 0
    requires w == (v ^ SignBit(n)) - SignBit(n)
    ensures ToInt(w) == Value(v)
    ensures 0 <= ToInt(w) < Pow2(n as int - 1)
  {
    SignClear(v, n);
    FitsBelow(v, n - 1);
    SignBitSplit(n);
  }

  /** Sign extension of an `n`-bit field whose top bit is set: the field less
      2^n, and the field is at least 2^(n-1). */
  lemma ExtendSet(v: bv32, n: bv32)
    requires 1 <= n <= 32 && Fits(v, n) && v & SignBit(n) != 0
    ensures ToInt((v ^ SignBit(n)) - SignBit(n)) == Value(v) - Pow2(n as int)
    ensures Pow2(n as int - 1) <= Value(v) < Pow2(n as int)
  {
    SignSet(v, n);
    SignSetParts(v, n);
    FitsBelow(v, n);
    DisjointBits(v, !LowMask(n), 32);
    HighValue(n);
    DisjointBits(SignBit(n), v & !SignBit(n), 32);
    SignBitValue(n);
  }

  /** The same, as a range: at least -2^(n-1) and negative. */
  lemma ExtendNegative(v: bv32, n: bv32, w: bv32)
    requires 1 <= n <= 32 && Fits(v, n) && v & SignBit(n) != 0
    requires w == (v ^ SignBit(n)) - SignBit(n)
    ensures ToInt(w) == Value(v) - Pow2(n as int)
    ensures -(Pow2(n as int - 1) as int) <= ToInt(w) < 0
  {
    ExtendSet(v, n);
    Pow2Step(n);
  }

  /** Signed fixed-width values whose field has its top bit set. */
  lemma FixedNegative(prop: Prop, stream: BitRead -> bv32, v: bv32, d: Decoded)
    requires !IsTickCount(prop) && !IsUnsigned(prop) && 1 <= prop.numBits <= 32
    requires v == stream(NumericBits(prop.numBits)) && d == Decode(prop, stream)
    requires Fits(v, prop.numBits) && v & SignBit(prop.numBits) != 0
    ensures ToInt(d.value) == Value(v) - Pow2(prop.numBits as int)
    ensures -(Pow2(prop.numBits as int - 1) as int) <= ToInt(d.value) < 0
  {
    SignedRead(prop, stream);
    ExtendNegative(v, prop.numBits, d.value);
  }

  /** Signed fixed-width values whose field has its top bit clear. */
  lemma FixedNonNegative(prop: Prop, stream: BitRead -> bv32, v: bv32, d: Decoded)
    requires !IsTickCount(prop) && !IsUnsigned(prop) && 1 <= prop.numBits <= 32
    requires v == stream(NumericBits(prop.numBits)) && d == Decode(prop, stream)
    requires Fits(v, prop.numBits) && v & SignBit(prop.numBits) == 0
    ensures ToInt(d.value) == Value(v)
    ensures 0 <= ToInt(d.value) < Pow2(prop.numBits as int - 1)
  {
    SignedRead(prop, stream);
    ExtendClear(v, prop.numBits, d.value);
  }

  /** Signed fixed-width values are the two's-complement sign extension of
      their `numBits` raw bits: the raw value less 2^numBits when the top
      bit of the field is set, the raw value otherwise; so they lie in
      [-2^(numBits-1), 2^(numBits-1)). */
  lemma FixedSigned(prop: Prop, stream: BitRead -> bv32, d: Decoded)
    requires !IsTickCount(prop) && !IsUnsigned(prop) && 1 <= prop.numBits <= 32
    requires Fits(stream(NumericBits(prop.numBits)), prop.numBits)
    requires d == Decode(prop, stream)
    ensures var n := prop.numBits;
            var v := stream(NumericBits(n));
            && (v & SignBit(n) != 0 ==> ToInt(d.value) == Value(v) - Pow2(n as int))
            && (v & SignBit(n) == 0 ==> ToInt(d.value) == Value(v))
            && -(Pow2(n as int - 1) as int) <= ToInt(d.value) < Pow2(n as int - 1)
  {
    var v := stream(NumericBits(prop.numBits));
    if v & SignBit(prop.numBits) != 0 {
      FixedNegative(prop, stream, v, d);
    } else {
      FixedNonNegative(prop, stream, v, d);
    }
  }

  /** Four bits 1111 are -1 when signed and 15 when unsigned. */
  lemma FourBitExamples(stream: BitRead -> bv32)
    requires stream(NumericBits(4)) == 0xF
    ensures ToInt(Decode(Prop(4, 0), stream).value) == -1
    ensures ToInt(Decode(Prop(4, Unsigned), stream).value) == 15
  {
    FourBits();
    FixedSigned(Prop(4, 0), stream, Decode(Prop(4, 0), stream));
    FixedUnsigned(Prop(4, Unsigned), stream);
    LowMaskBits(4, 32);
  }

  lemma FourBits()
    ensures LowMask(4) == 0xF && Fits(0xF, 4) && 0xF & SignBit(4) != 0
    ensures Decode(Prop(4, Unsigned), _ => 0xF).value == 0xF
  {
  }
}

=== FILE: properties.dfy ===
/** What the demo reader promises, stated over the functions of module Demo:
    how the header is checked, how a stream opens and closes, how tick events
    alternate, which frames are skipped and which are raised, and how a
    container's embedded messages are unpacked. */
module Properties {
  import opened Wire
  import opened Demo

  /** The tick events of an event log, in order. */
  function TickEvents(evs: seq<Event>): (ts: seq<Event>)
    ensures |ts| <= |evs|
    ensures forall e :: e in ts ==> IsTickEvent(e) && e in evs
  {
    if evs == [] then []
    else (if IsTickEvent(evs[0]) then [evs[0]] else []) + TickEvents(evs[1..])
  }

  /** No OnMessage and no MessageContainer event. */
  predicate NoMessages(evs: seq<Event>)
  {
    forall e :: e in evs ==> !e.OnMessage? && !e.MessageContainer?
  }

  /** `ts`, the tick events after a TickStart(t), closes that tick: it is
      TickEnd(t), possibly followed by TickStart(u) for a different tick u
      and a sequence that closes u. */
  predicate ClosesFrom(ts: seq<Event>, t: bv32)
    decreases |ts|
  {
    && 1 <= |ts|
    && ts[0] == TickEnd(t)
    && (|ts| == 1 || (3 <= |ts| && ts[1].TickStart? && ts[1].tick != t && ClosesFrom(ts[2..], ts[1].tick)))
  }

  /** `ts`, the tick events after a TickStart(t), leaves tick `last` open:
      every tick but the last was ended, and each new tick differs from the
      one it replaced. */
  predicate OpenFrom(ts: seq<Event>, t: bv32, last: bv32)
    decreases |ts|
  {
    if ts == [] then last == t
    else
      && 2 <= |ts|
      && ts[0] == TickEnd(t)
      && ts[1].TickStart? && ts[1].tick != t
      && OpenFrom(ts[2..], ts[1].tick, last)
  }

  function Starts(ts: seq<Event>): nat
  {
    if ts == [] then 0 else (if ts[0].TickStart? then 1 else 0) + Starts(ts[1..])
  }

  function Ends(ts: seq<Event>): nat
  {
    if ts == [] then 0 else (if ts[0].TickEnd? then 1 else 0) + Ends(ts[1..])
  }

  lemma {:induction false} TickEventsAppend(a: seq<Event>, b: seq<Event>)
    ensures TickEvents(a + b) == TickEvents(a) + TickEvents(b)
    decreases |a|
  {
    if a == [] {
      assert a + b == b;
    } else {
      assert (a + b)[1..] == a[1..] + b;
      TickEventsAppend(a[1..], b);
    }
  }

  lemma {:induction false} TickEventsNone(evs: seq<Event>)
    requires NoTicks(evs)
    ensures TickEvents(evs) == []
    decreases |evs|
  {
    if evs != [] {
      assert evs[0] in evs;
      TickEventsNone(evs[1..]);
    }
  }

  /** The header check: when the first eight bytes are missing or are not
      "PBUFDEM\0", the pass fails before reading the offset and raises
      nothing. */
  lemma HeaderRejected(reg: Registry, unpack: bool, tick0: bv32, input: seq<bv8>)
    requires |input| < 8 || input[..8] != Magic
    ensures var run := StreamRun(reg, unpack, tick0, input);
            && run.events == []
            && run.tick == tick0
            && run.failure == Some(if |input| < 8 then Truncated else BadHeader)
  {
  }

  /** Bytes `pos` to `pos + 3` are the little-endian encoding of the fixed32
      read there. */
  lemma Fixed32Bytes(data: seq<bv8>, pos: nat)
    requires pos + 4 <= |data|
    ensures EncodeFixed32(ReadFixed32(data, pos).value.0) == data[pos..pos + 4]
  {
    var b0, b1, b2, b3 := data[pos], data[pos + 1], data[pos + 2], data[pos + 3];
    assert data[pos..pos + 4] == [b0, b1, b2, b3];
    LittleEndianBytes(b0, b1, b2, b3);
  }

  lemma LittleEndianBytes(b0: bv8, b1: bv8, b2: bv8, b3: bv8)
    ensures EncodeFixed32(b0 as bv32 | ((b1 as bv32) << 8) | ((b2 as bv32) << 16) | ((b3 as bv32) << 24))
            == [b0, b1, b2, b3]
  {
  }

  /** A stream with the right header opens with the file-info offset, which
      is the little-endian word at bytes 8 to 11, then a TickStart of the
      initial tick. */
  lemma StreamOpening(reg: Registry, unpack: bool, tick0: bv32, input: seq<bv8>)
    requires 12 <= |input| && input[..8] == Magic
    ensures var run := StreamRun(reg, unpack, tick0, input);
            && 2 <= |run.events|
            && run.events[0].FileInfoOffset?
            && EncodeFixed32(run.events[0].offset) == input[8..12]
            && run.events[1] == TickStart(tick0)
  {
    Fixed32Bytes(input, 8);
  }

  /** A pass that ends normally ends with a TickEnd of the current tick. */
  predicate Closed(run: Run)
  {
    run.failure.None? ==> 1 <= |run.events| && run.events[|run.events| - 1] == TickEnd(run.tick)
  }

  /** Every pass over the frames that ends normally is closed. */
  lemma {:induction false} FramesClose(reg: Registry, unpack: bool, input: seq<bv8>, pos: nat, tick: bv32)
    requires pos <= |input|
    ensures Closed(FramesFrom(reg, unpack, input, pos, tick))
    decreases |input| - pos
  {
    if pos < |input| {
      var f := FrameStep(reg, unpack, input, pos, tick);
      if f.failure.None? {
        FramesClose(reg, unpack, input, f.pos, f.tick);
        NextFrameCloses(reg, unpack, input, pos, tick);
      }
    }
  }

  /** A pass whose first frame succeeds ends as the rest of it ends. */
  lemma NextFrameCloses(reg: Registry, unpack: bool, input: seq<bv8>, pos: nat, tick: bv32)
    requires pos < |input|
    requires var f := FrameStep(reg, unpack, input, pos, tick);
             f.failure.None? && Closed(FramesFrom(reg, unpack, input, f.pos, f.tick))
    ensures Closed(FramesFrom(reg, unpack, input, pos, tick))
  {
  }

  /** A stream read to its end ends with exactly one TickEnd, of the tick
      current at the end. */
  lemma StreamCloses(reg: Registry, unpack: bool, tick0: bv32, input: seq<bv8>)
    ensures var run := StreamRun(reg, unpack, tick0, input);
            run.failure.None? ==> 3 <= |run.events| && run.events[|run.events| - 1] == TickEnd(run.tick)
  {
    if 12 <= |input| && input[..8] == Magic {
      FramesClose(reg, unpack, input, 12, tick0);
    }
  }

  /** One frame raises a TickEnd of the current tick and a TickStart of its
      own tick, before anything else, exactly when its tick differs from the
      current one; either way its tick becomes the current one. */
  lemma FrameTickBoundary(reg: Registry, unpack: bool, input: seq<bv8>, pos: nat, tick: bv32, h: FrameHeader, p: nat)
    requires ReadFrameHeader(input, pos) == Ok((h, p))
    ensures var f := FrameStep(reg, unpack, input, pos, tick);
            && f.tick == h.tick
            && (h.tick != tick ==> f.events[..2] == [TickEnd(tick), TickStart(h.tick)])
            && TickEvents(f.events) == (if h.tick != tick then [TickEnd(tick), TickStart(h.tick)] else [])
  {
    var body := FrameBody(reg, unpack, input, p, h);
    TickEventsAppend(TickBoundary(tick, h.tick), body.events);
    TickEventsNone(body.events);
  }

  /** The tick events of a pass from tick `tick` alternate: each TickEnd is
      followed by a TickStart of a different tick, and a pass that ends
      normally closes the last tick while one that fails leaves the tick
      current at the failure open. */
  predicate Alternates(run: Run, tick: bv32)
  {
    && (run.failure.None? ==> ClosesFrom(TickEvents(run.events), tick))
    && (run.failure.Some? ==> OpenFrom(TickEvents(run.events), tick, run.tick))
  }

  /** The tick events of every pass over the frames alternate. */
  lemma {:induction false} FramesAlternate(reg: Registry, unpack: bool, input: seq<bv8>, pos: nat, tick: bv32)
    requires pos <= |input|
    ensures Alternates(FramesFrom(reg, unpack, input, pos, tick), tick)
    decreases |input| - pos
  {
    if pos == |input| {
      assert TickEvents([TickEnd(tick)]) == [TickEnd(tick)];
    } else {
      var f := FrameStep(reg, unpack, input, pos, tick);
      if f.failure.Some? {
        FailedFrameAlternates(reg, unpack, input, pos, tick);
      } else {
        FramesAlternate(reg, unpack, input, f.pos, f.tick);
        NextFrameAlternates(reg, unpack, input, pos, tick);
      }
    }
  }

  /** A pass that fails within its first frame. */
  lemma FailedFrameAlternates(reg: Registry, unpack: bool, input: seq<bv8>, pos: nat, tick: bv32)
    requires pos < |input| && FrameStep(reg, unpack, input, pos, tick).failure.Some?
    ensures Alternates(FramesFrom(reg, unpack, input, pos, tick), tick)
  {
    var f := FrameStep(reg, unpack, input, pos, tick);
    FrameStepTicks(reg, unpack, input, pos, tick);
    BoundaryThenOpen(TickEvents(f.events), [], tick, f.tick, f.tick);
    assert TickEvents(f.events) + [] == TickEvents(f.events);
  }

  /** A pass whose first frame succeeds alternates when the rest does. */
  lemma NextFrameAlternates(reg: Registry, unpack: bool, input: seq<bv8>, pos: nat, tick: bv32)
    requires pos < |input|
    requires var f := FrameStep(reg, unpack, input, pos, tick);
             && f.failure.None?
             && Alternates(FramesFrom(reg, unpack, input, f.pos, f.tick), f.tick)
    ensures Alternates(FramesFrom(reg, unpack, input, pos, tick), tick)
  {
    var f := FrameStep(reg, unpack, input, pos, tick);
    var rest := FramesFrom(reg, unpack, input, f.pos, f.tick);
    FrameStepTicks(reg, unpack, input, pos, tick);
    TickEventsAppend(f.events, rest.events);
    if rest.failure.None? {
      BoundaryThenClose(TickEvents(f.events), TickEvents(rest.events), tick, f.tick);
    } else {
      BoundaryThenOpen(TickEvents(f.events), TickEvents(rest.events), tick, f.tick, rest.tick);
    }
  }

  /** The tick events of one frame, whether or not its header could be read. */
  lemma FrameStepTicks(reg: Registry, unpack: bool, input: seq<bv8>, pos: nat, tick: bv32)
    ensures var f := FrameStep(reg, unpack, input, pos, tick);
            TickEvents(f.events) == (if f.tick != tick then [TickEnd(tick), TickStart(f.tick)] else [])
  {
    match ReadFrameHeader(input, pos)
    case Err(_) =>
    case Ok((h, p)) =>
      FrameTickBoundary(reg, unpack, input, pos, tick, h, p);
  }

  /** A frame's tick boundary followed by tick events that close its tick. */
  lemma BoundaryThenClose(tb: seq<Event>, ts: seq<Event>, tick: bv32, next: bv32)
    requires tb == (if next != tick then [TickEnd(tick), TickStart(next)] else [])
    requires ClosesFrom(ts, next)
    ensures ClosesFrom(tb + ts, tick)
  {
    if next != tick {
      assert (tb + ts)[2..] == ts;
    } else {
      assert tb + ts == ts;
    }
  }

  /** A frame's tick boundary followed by tick events that leave `last` open. */
  lemma BoundaryThenOpen(tb: seq<Event>, ts: seq<Event>, tick: bv32, next: bv32, last: bv32)
    requires tb == (if next != tick then [TickEnd(tick), TickStart(next)] else [])
    requires OpenFrom(ts, next, last)
    ensures OpenFrom(tb + ts, tick, last)
  {
    if next != tick {
      assert (tb + ts)[2..] == ts;
    } else {
      assert tb + ts == ts;
    }
  }

  lemma {:induction false} ClosesCount(ts: seq<Event>, t: bv32)
    requires ClosesFrom(ts, t)
    ensures Ends(ts) == Starts(ts) + 1
    decreases |ts|
  {
    if |ts| > 1 {
      assert ts[1..][1..] == ts[2..];
      ClosesCount(ts[2..], ts[1].tick);
    }
  }

  lemma {:induction false} OpenCount(ts: seq<Event>, t: bv32, last: bv32)
    requires OpenFrom(ts, t, last)
    ensures Ends(ts) == Starts(ts)
    decreases |ts|
  {
    if ts != [] {
      assert ts[1..][1..] == ts[2..];
      OpenCount(ts[2..], ts[1].tick, last);
    }
  }

  /** Over a whole stream the tick events start with TickStart(tick0) and
      alternate. When the stream is read to its end there are as many
      TickStart as TickEnd events; when it fails, one tick is left open. */
  lemma StreamTicks(reg: Registry, unpack: bool, tick0: bv32, input: seq<bv8>)
    requires 12 <= |input| && input[..8] == Magic
    ensures var run := StreamRun(reg, unpack, tick0, input);
            var ts := TickEvents(run.events);
            && 1 <= |ts| && ts[0] == TickStart(tick0)
            && (run.failure.None? ==> ClosesFrom(ts[1..], tick0) && Starts(ts) == Ends(ts))
            && (run.failure.Some? ==> OpenFrom(ts[1..], tick0, run.tick) && Starts(ts) == Ends(ts) + 1)
  {
    var run := StreamRun(reg, unpack, tick0, input);
    var frames := FramesFrom(reg, unpack, input, 12, tick0);
    StreamTickEvents(reg, unpack, tick0, input);
    FramesAlternate(reg, unpack, input, 12, tick0);
    var ts := TickEvents(run.events);
    assert ts[1..] == TickEvents(frames.events);
    OpenedTicks(ts, tick0, run.failure.Some?, run.tick);
  }

  /** The tick events of a stream with the right header: the opening
      TickStart, then those of the frames. */
  lemma StreamTickEvents(reg: Registry, unpack: bool, tick0: bv32, input: seq<bv8>)
    requires 12 <= |input| && input[..8] == Magic
    ensures var run := StreamRun(reg, unpack, tick0, input);
            var frames := FramesFrom(reg, unpack, input, 12, tick0);
            && TickEvents(run.events) == [TickStart(tick0)] + TickEvents(frames.events)
            && run.tick == frames.tick
            && run.failure == frames.failure
  {
    var run := StreamRun(reg, unpack, tick0, input);
    var frames := FramesFrom(reg, unpack, input, 12, tick0);
    var opening := [FileInfoOffset(run.events[0].offset), TickStart(tick0)];
    assert run.events == opening + frames.events;
    TickEventsAppend(opening, frames.events);
    assert TickEvents(opening) == [TickStart(tick0)];
  }

  /** Counting the tick events that follow an opening TickStart. */
  lemma OpenedTicks(ts: seq<Event>, tick0: bv32, failed: bool, last: bv32)
    requires 1 <= |ts| && ts[0] == TickStart(tick0)
    requires !failed ==> ClosesFrom(ts[1..], tick0)
    requires failed ==> OpenFrom(ts[1..], tick0, last)
    ensures !failed ==> Starts(ts) == Ends(ts)
    ensures failed ==> Starts(ts) == Ends(ts) + 1
  {
    if failed {
      OpenCount(ts[1..], tick0, last);
    } else {
      ClosesCount(ts[1..], tick0);
    }
  }

  /** Frames that are skipped: an unknown kind (which is warned about), a
      full packet, and a known kind nobody listens to. Exactly `size` bytes
      are skipped and no message is raised. */
  lemma FrameSkipped(reg: Registry, unpack: bool, input: seq<bv8>, pos: nat, h: FrameHeader)
    requires h.kind !in reg.demo
             || reg.demo[h.kind].DemoFullPacket?
             || (!IsContainer(reg.demo[h.kind]) && reg.demo[h.kind] !in reg.listened)
    ensures var s := FrameBody(reg, unpack, input, pos, h);
            && s.events == (if h.kind !in reg.demo then [UnknownKind(TopLevel, h.kind)] else [])
            && NoMessages(s.events)
            && (s.failure.None? <==> Skip(input, pos, h.size).Ok?)
            && (s.failure.None? ==> s.pos == pos + h.size as int)
            && (s.failure.Some? ==> s.failure.value == Skip(input, pos, h.size).error)
  {
  }

  /** A container frame is read and raised as one container event whether or
      not anyone listens to it; the messages it holds follow it. */
  lemma ContainerRaised(reg: Registry, unpack: bool, input: seq<bv8>, pos: nat, h: FrameHeader,
                        bytes: seq<bv8>, end: nat, msg: Message)
    requires h.kind in reg.demo && IsContainer(reg.demo[h.kind])
    requires Demo.ReadPacket(reg, input, pos, h.size, h.compressed) == Ok((bytes, end))
    requires reg.parse(reg.demo[h.kind], bytes) == Some(msg)
    ensures var s := FrameBody(reg, unpack, input, pos, h);
            var inner := Unpack(reg, unpack, msg.data);
            && s.events == [MessageContainer(msg.data)] + inner.events
            && s.failure == inner.failure
            && (s.failure.None? ==> s.pos == end)
  {
  }

  /** An uncompressed payload never reaches the decompressor: the read is the
      same whatever the decompressor does. */
  lemma UncompressedPacket(reg: Registry, input: seq<bv8>, pos: nat, size: bv32,
                           decompress: seq<bv8> -> Option<seq<bv8>>)
    ensures Demo.ReadPacket(reg, input, pos, size, false)
            == Demo.ReadPacket(reg.(decompress := decompress), input, pos, size, false)
  {
  }

  /** A compressed payload that does not decompress ends the whole pass: a
      container or listened frame whose payload is read but rejected by the
      decompressor raises its tick boundary and nothing else, and the pass
      stops there with BadCompression. */
  lemma CompressionFailureEndsPass(reg: Registry, unpack: bool, input: seq<bv8>, pos: nat, tick: bv32,
                                   h: FrameHeader, p: nat, raw: seq<bv8>, end: nat)
    requires pos < |input| && ReadFrameHeader(input, pos) == Ok((h, p))
    requires h.kind in reg.demo && h.compressed
    requires IsContainer(reg.demo[h.kind])
             || (!reg.demo[h.kind].DemoFullPacket? && reg.demo[h.kind] in reg.listened)
    requires ReadBytes(input, p, h.size) == Ok((raw, end)) && reg.decompress(raw).None?
    ensures FrameBody(reg, unpack, input, p, h) == Step([], p, Some(BadCompression))
    ensures FramesFrom(reg, unpack, input, pos, tick)
            == Run(TickBoundary(tick, h.tick), h.tick, Some(BadCompression))
  {
    assert Demo.ReadPacket(reg, input, p, h.size, true) == Err(BadCompression);
  }

  /** The bytes of a top-level frame header: `varint kind | varint tick |
      varint size`. */
  function EncodeFrameHeader(raw: bv32, tick: bv32, size: bv32): (e: seq<bv8>)
    ensures 3 <= |e|
  {
    EncodeVarint32(raw) + EncodeVarint32(tick) + EncodeVarint32(size)
  }

  /** Reading back an encoded frame header gives its kind (compression bits
      split off), its tick and its size, in that order, and consumes exactly
      the header, whatever follows. */
  lemma FrameHeaderRoundTrip(raw: bv32, tick: bv32, size: bv32, rest: seq<bv8>)
    ensures var e := EncodeFrameHeader(raw, tick, size);
            ReadFrameHeader(e + rest, 0)
            == Ok((FrameHeader(SplitKind(raw).0, SplitKind(raw).1, tick, size), |e|))
  {
    var a, b, c := EncodeVarint32(raw), EncodeVarint32(tick), EncodeVarint32(size);
    var data := EncodeFrameHeader(raw, tick, size) + rest;
    assert data == a + b + c + rest;
    HeaderSlices(a, b, c, rest, data);
    HeaderFromSlices(data, raw, tick, size, |a|, |a| + |b|, |a| + |b| + |c|);
  }

  /** Where the three varints of a frame header sit in the bytes. */
  lemma HeaderSlices(a: seq<bv8>, b: seq<bv8>, c: seq<bv8>, rest: seq<bv8>, data: seq<bv8>)
    requires data == a + b + c + rest
    ensures data[0 .. |a|] == a
    ensures data[|a| .. |a| + |b|] == b
    ensures data[|a| + |b| .. |a| + |b| + |c|] == c
  {
    assert data[0 .. |a|] == a;
    assert data[|a| .. |a| + |b|] == b;
    assert data[|a| + |b| .. |a| + |b| + |c|] == c;
  }

  /** A frame header is read from three consecutive varint encodings. */
  lemma HeaderFromSlices(data: seq<bv8>, raw: bv32, tick: bv32, size: bv32, p1: nat, p2: nat, p3: nat)
    requires p1 <= p2 <= p3 <= |data|
    requires data[0 .. p1] == EncodeVarint32(raw)
    requires data[p1 .. p2] == EncodeVarint32(tick)
    requires data[p2 .. p3] == EncodeVarint32(size)
    ensures ReadFrameHeader(data, 0) == Ok((FrameHeader(SplitKind(raw).0, SplitKind(raw).1, tick, size), p3))
  {
    HeaderReads(data, raw, tick, size, p1, p2, p3);
    HeaderFromReads(data, raw, tick, size, p1, p2, p3);
  }

  /** The three varints of a frame header, each read where it sits. */
  lemma HeaderReads(data: seq<bv8>, raw: bv32, tick: bv32, size: bv32, p1: nat, p2: nat, p3: nat)
    requires p1 <= p2 <= p3 <= |data|
    requires data[0 .. p1] == EncodeVarint32(raw)
    requires data[p1 .. p2] == EncodeVarint32(tick)
    requires data[p2 .. p3] == EncodeVarint32(size)
    ensures ReadVarint32(data, 0) == Ok((raw, p1))
    ensures ReadVarint32(data, p1) == Ok((tick, p2))
    ensures ReadVarint32(data, p2) == Ok((size, p3))
  {
    ReadAt(data, 0, p1, raw);
    ReadAt(data, p1, p2, tick);
    ReadAt(data, p2, p3, size);
  }

  /** A frame header is the three varints read one after the other. */
  lemma HeaderFromReads(data: seq<bv8>, raw: bv32, tick: bv32, size: bv32, p1: nat, p2: nat, p3: nat)
    requires ReadVarint32(data, 0) == Ok((raw, p1))
    requires ReadVarint32(data, p1) == Ok((tick, p2))
    requires ReadVarint32(data, p2) == Ok((size, p3))
    ensures ReadFrameHeader(data, 0) == Ok((FrameHeader(SplitKind(raw).0, SplitKind(raw).1, tick, size), p3))
  {
  }

  /** The bytes of an embedded sub-frame header: `varint kind | varint size`. */
  function EncodeSubFrameHeader(kind: bv32, size: bv32): (e: seq<bv8>)
    ensures 2 <= |e|
  {
    EncodeVarint32(kind) + EncodeVarint32(size)
  }

  /** Reading back an encoded sub-frame header of a non-zero kind: the
      message of that kind and size is handled right after the header. */
  lemma SubFrameHeaderRoundTrip(reg: Registry, unpack: bool, kind: bv32, size: bv32, rest: seq<bv8>)
    requires kind != 0
    ensures var e := EncodeSubFrameHeader(kind, size);
            var s := EmbeddedBody(reg, unpack, e + rest, |e|, kind, size);
            EmbeddedStep(reg, unpack, e + rest, 0) == SubFrame(s.events, s.pos, s.failure, false)
  {
    var a, b := EncodeVarint32(kind), EncodeVarint32(size);
    var data := EncodeSubFrameHeader(kind, size) + rest;
    assert data == a + b + rest;
    SubFrameSlices(a, b, rest, data);
    SubFrameFromSlices(reg, unpack, data, kind, size, |a|, |a| + |b|);
  }

  /** Where the two varints of a sub-frame header sit in the bytes. */
  lemma SubFrameSlices(a: seq<bv8>, b: seq<bv8>, rest: seq<bv8>, data: seq<bv8>)
    requires data == a + b + rest
    ensures data[0 .. |a|] == a
    ensures data[|a| .. |a| + |b|] == b
  {
    assert data[0 .. |a|] == a;
    assert data[|a| .. |a| + |b|] == b;
  }

  /** A sub-frame header is read from two consecutive varint encodings. */
  lemma SubFrameFromSlices(reg: Registry, unpack: bool, data: seq<bv8>, kind: bv32, size: bv32, p1: nat, p2: nat)
    requires kind != 0
    requires p1 <= p2 <= |data|
    requires data[0 .. p1] == EncodeVarint32(kind)
    requires data[p1 .. p2] == EncodeVarint32(size)
    ensures var s := EmbeddedBody(reg, unpack, data, p2, kind, size);
            EmbeddedStep(reg, unpack, data, 0) == SubFrame(s.events, s.pos, s.failure, false)
  {
    SubFrameReads(data, kind, size, p1, p2);
    SubFrameFromReads(reg, unpack, data, kind, size, p1, p2);
  }

  /** The two varints of a sub-frame header, each read where it sits. */
  lemma SubFrameReads(data: seq<bv8>, kind: bv32, size: bv32, p1: nat, p2: nat)
    requires p1 <= p2 <= |data|
    requires data[0 .. p1] == EncodeVarint32(kind)
    requires data[p1 .. p2] == EncodeVarint32(size)
    ensures ReadVarint32(data, 0) == Ok((kind, p1))
    ensures ReadVarint32(data, p1) == Ok((size, p2))
  {
    ReadAt(data, 0, p1, kind);
    ReadAt(data, p1, p2, size);
  }

  /** The varint between `pos` and `end` reads back as `v`. */
  lemma ReadAt(data: seq<bv8>, pos: nat, end: nat, v: bv32)
    requires pos <= end <= |data| && data[pos .. end] == EncodeVarint32(v)
    ensures ReadVarint32(data, pos) == Ok((v, end))
  {
    VarintAt(data, pos, v, data[pos .. end]);
  }

  /** An embedded sub-frame of non-zero kind is its two varints and then its
      message. */
  lemma SubFrameFromReads(reg: Registry, unpack: bool, data: seq<bv8>, kind: bv32, size: bv32, p1: nat, p2: nat)
    requires kind != 0
    requires ReadVarint32(data, 0) == Ok((kind, p1))
    requires ReadVarint32(data, p1) == Ok((size, p2))
    ensures var s := EmbeddedBody(reg, unpack, data, p2, kind, size);
            EmbeddedStep(reg, unpack, data, 0) == SubFrame(s.events, s.pos, s.failure, false)
  {
  }

  /** Listening changes what is raised but not the framing: two passes over
      the same bytes that differ in the classes listened to, and so possibly
      in whether user messages are unpacked, and both end normally, raise the
      same tick events and end at the same tick. */
  lemma {:induction false} ListenersKeepTicks(reg: Registry, listened: set<MessageClass>, unpack: bool,
                                              unpack2: bool, input: seq<bv8>, pos: nat, tick: bv32)
    requires pos <= |input|
    ensures var a := FramesFrom(reg, unpack, input, pos, tick);
            var b := FramesFrom(reg.(listened := listened), unpack2, input, pos, tick);
            a.failure.None? && b.failure.None? ==>
              TickEvents(a.events) == TickEvents(b.events) && a.tick == b.tick
    decreases |input| - pos
  {
    var reg2 := reg.(listened := listened);
    if pos < |input| {
      var f := FrameStep(reg, unpack, input, pos, tick);
      var g := FrameStep(reg2, unpack2, input, pos, tick);
      if f.failure.None? && g.failure.None? {
        SameFraming(reg, reg2, unpack, unpack2, input, pos, tick);
        ListenersKeepTicks(reg, listened, unpack, unpack2, input, f.pos, f.tick);
        var a := FramesFrom(reg, unpack, input, f.pos, f.tick);
        var b := FramesFrom(reg2, unpack2, input, f.pos, f.tick);
        FrameStepTicks(reg, unpack, input, pos, tick);
        FrameStepTicks(reg2, unpack2, input, pos, tick);
        TickEventsAppend(f.events, a.events);
        TickEventsAppend(g.events, b.events);
      }
    }
  }

  /** One frame read under two registries and two unpack flags ends at the
      same tick and, when both succeed, at the same position. */
  lemma SameFraming(reg: Registry, reg2: Registry, unpack: bool, unpack2: bool, input: seq<bv8>, pos: nat,
                    tick: bv32)
    ensures var f := FrameStep(reg, unpack, input, pos, tick);
            var g := FrameStep(reg2, unpack2, input, pos, tick);
            && f.tick == g.tick
            && (f.failure.None? && g.failure.None? ==> f.pos == g.pos)
  {
  }

  /** The messages a container holds are never containers themselves. */
  lemma {:induction false} UnpackNoContainers(reg: Registry, unpack: bool, data: seq<bv8>, pos: nat)
    requires pos <= |data|
    ensures forall e :: e in UnpackFrom(reg, unpack, data, pos).events ==> !e.MessageContainer?
    decreases |data| - pos
  {
    if pos < |data| {
      var f := EmbeddedStep(reg, unpack, data, pos);
      match ReadVarint32(data, pos)
      case Err(_) =>
      case Ok((kind, p1)) =>
        match ReadVarint32(data, p1)
        case Err(_) =>
        case Ok((size, p2)) =>
          EmbeddedNoContainers(reg, unpack, data, p2, kind, size);
      if f.failure.None? && !f.sentinel {
        UnpackNoContainers(reg, unpack, data, f.pos);
      }
    }
  }

  lemma EmbeddedNoContainers(reg: Registry, unpack: bool, data: seq<bv8>, pos: nat, kind: bv32, size: bv32)
    ensures forall e :: e in EmbeddedBody(reg, unpack, data, pos, kind, size).events ==> !e.MessageContainer?
  {
  }

  /** A container frame raises exactly one container event. */
  lemma ContainerRaisedOnce(reg: Registry, unpack: bool, input: seq<bv8>, pos: nat, h: FrameHeader)
    requires h.kind in reg.demo && IsContainer(reg.demo[h.kind])
    ensures var s := FrameBody(reg, unpack, input, pos, h);
            s.failure.None? ==> |s.events| >= 1 && s.events[0].MessageContainer?
                                && forall e :: e in s.events[1..] ==> !e.MessageContainer?
  {
    var cls := reg.demo[h.kind];
    var s := FrameBody(reg, unpack, input, pos, h);
    assert s == ContainerBody(reg, unpack, input, pos, cls, h.size, h.compressed);
    var x := Demo.ReadPacket(reg, input, pos, h.size, h.compressed);
    if x.Ok? {
      var m := Parse(reg, cls, x.value.0);
      if m.Ok? {
        ContainerBodyParsed(reg, unpack, input, pos, cls, h.size, h.compressed, x.value.0, x.value.1, m.value);
        var inner := Unpack(reg, unpack, m.value.data);
        assert s.events[1..] == inner.events;
        UnpackNoContainers(reg, unpack, m.value.data, 0);
      }
    }
  }

  /** Any other listened kind is read, parsed and raised as exactly one
      OnMessage. */
  lemma ListenedRaised(reg: Registry, unpack: bool, input: seq<bv8>, pos: nat, h: FrameHeader,
                       bytes: seq<bv8>, end: nat)
    requires h.kind in reg.demo
    requires !IsContainer(reg.demo[h.kind]) && !reg.demo[h.kind].DemoFullPacket?
    requires reg.demo[h.kind] in reg.listened
    requires Demo.ReadPacket(reg, input, pos, h.size, h.compressed) == Ok((bytes, end))
    ensures var cls := reg.demo[h.kind];
            var s := FrameBody(reg, unpack, input, pos, h);
            && (s.failure.None? <==> reg.parse(cls, bytes).Some?)
            && (s.failure.None? ==> s.events == [OnMessage(cls, reg.parse(cls, bytes).value)] && s.pos == end)
            && (s.failure.Some? ==> s.events == [] && s.failure == Some(BadMessage))
  {
  }

  /** A zero kind ends the unpacking of a container: no size is read, nothing
      is raised and the pass goes on, whatever bytes follow. */
  lemma UnpackSentinel(reg: Registry, unpack: bool, data: seq<bv8>, pos: nat, p1: nat)
    requires pos < |data| && ReadVarint32(data, pos) == Ok((0, p1))
    ensures UnpackFrom(reg, unpack, data, pos) == Unpacked([], None)
  {
  }

  /** Embedded messages that are skipped: an unknown kind (warned about), and
      a known kind nobody listens to that is not a user message to unwrap.
      Exactly `size` bytes are skipped and no message is raised. */
  lemma EmbeddedSkipped(reg: Registry, unpack: bool, data: seq<bv8>, pos: nat, kind: bv32, size: bv32)
    requires kind !in reg.embed
             || (reg.embed[kind] !in reg.listened && !(unpack && reg.embed[kind].UserMessage?))
    ensures var s := EmbeddedBody(reg, unpack, data, pos, kind, size);
            && s.events == (if kind !in reg.embed then [UnknownKind(Embedded, kind)] else [])
            && NoMessages(s.events)
            && (s.failure.None? <==> Skip(data, pos, size).Ok?)
            && (s.failure.None? ==> s.pos == pos + size as int)
  {
  }

  /** A user-message wrapper, when user messages are unpacked: it is read
      and parsed whether or not anyone listens, and a read or a parse that
      fails ends the pass with nothing raised. Once parsed, the wrapper is
      raised itself exactly when it is listened to, and the message inside it
      is raised exactly when its type is in the user-message table (a type
      missing from the table is warned about). */
  lemma UserMessageUnwrapped(reg: Registry, data: seq<bv8>, pos: nat, kind: bv32, size: bv32)
    requires kind in reg.embed && reg.embed[kind].UserMessage?
    ensures var s := EmbeddedBody(reg, true, data, pos, kind, size);
            match ReadBytes(data, pos, size)
            case Err(e) => s == Step([], pos, Some(e))
            case Ok((bytes, end)) =>
              match reg.parse(UserMessage, bytes)
              case None => s == Step([], end, Some(BadMessage))
              case Some(msg) =>
                var wrapper := if UserMessage in reg.listened then [OnMessage(UserMessage, msg)] else [];
                && (msg.msgType !in reg.usermsg ==>
                      s == Step(wrapper + [UnknownKind(UserMessages, msg.msgType)], end, None))
                && (msg.msgType in reg.usermsg ==>
                      var inner := reg.usermsg[msg.msgType];
                      match reg.parse(inner, msg.msgData)
                      case None => s == Step(wrapper, end, Some(BadMessage))
                      case Some(m) => s == Step(wrapper + [OnMessage(inner, m)], end, None))
  {
  }

  /** A listened embedded kind that is not a user message to unwrap is read,
      parsed and raised as exactly one OnMessage; a payload the parser
      rejects ends the pass with BadMessage, and a payload that cannot be
      read ends it with the read's error. */
  lemma EmbeddedListenedRaised(reg: Registry, unpack: bool, data: seq<bv8>, pos: nat, kind: bv32, size: bv32)
    requires kind in reg.embed && reg.embed[kind] in reg.listened
    requires !(unpack && reg.embed[kind].UserMessage?)
    ensures var cls := reg.embed[kind];
            var s := EmbeddedBody(reg, unpack, data, pos, kind, size);
            match ReadBytes(data, pos, size)
            case Err(e) => s == Step([], pos, Some(e))
            case Ok((bytes, end)) =>
              match reg.parse(cls, bytes)
              case None => s == Step([], end, Some(BadMessage))
              case Some(m) => s == Step([OnMessage(cls, m)], end, None)
  {
  }

  /** When no listener wants a user-message class, a listened wrapper is
      raised as it is and nothing inside it is. */
  lemma UserMessageKept(reg: Registry, data: seq<bv8>, pos: nat, kind: bv32, size: bv32,
                        bytes: seq<bv8>, end: nat, msg: Message)
    requires kind in reg.embed && reg.embed[kind].UserMessage? && UserMessage in reg.listened
    requires ReadBytes(data, pos, size) == Ok((bytes, end))
    requires reg.parse(UserMessage, bytes) == Some(msg)
    ensures EmbeddedBody(reg, false, data, pos, kind, size) == Step([OnMessage(UserMessage, msg)], end, None)
  {
    EmbeddedListenedRaised(reg, false, data, pos, kind, size);
  }
}

=== FILE: reader.dfy ===
/** InputSourceProcessor: the reader that walks a demo file frame by frame and
    raises what it finds. The events it raises are kept in `log`; the current
    tick, which the source holds and the context reports, is `tick`. Each
    method is proved to do what the functions of module Demo describe. */
module Reader {
  import opened Wire
  import opened Demo

  class InputSourceProcessor {
    /** The kind tables, the listened classes, the parser and the decompressor. */
    const reg: Registry
    /** The cursor over the stream being read. */
    var ms: CodedInput?
    /** Whether someone listens to a class of the user-message table. */
    var unpackUserMessages: bool
    var tick: bv32
    var log: seq<Event>

    /** The flag is set only when some listened class is in the user-message
        table. */
    ghost predicate FlagJustified()
      reads this
    {
      unpackUserMessages ==> exists c :: c in reg.listened && c in reg.usermsg.Values
    }

    constructor (reg: Registry, tick0: bv32)
      ensures this.reg == reg && ms == null && !unpackUserMessages
      ensures tick == tick0 && log == []
      ensures FlagJustified()
    {
      this.reg := reg;
      ms := null;
      unpackUserMessages := false;
      tick := tick0;
      log := [];
    }

    /** Called once per OnMessage listener, with the class it listens to: the
        flag becomes set once any listener wants a user-message class, and
        never becomes clear again. */
    method InitOnMessageListener(cls: MessageClass)
      requires cls in reg.listened
      modifies this`unpackUserMessages
      ensures unpackUserMessages == (old(unpackUserMessages) || cls in reg.usermsg.Values)
      ensures old(FlagJustified()) ==> FlagJustified()
    {
      unpackUserMessages := unpackUserMessages || cls in reg.usermsg.Values;
    }

    /** The `size` bytes at the cursor, decompressed when `isCompressed`. */
    method ReadPacket(size: bv32, isCompressed: bool) returns (r: Result<seq<bv8>>)
      requires ms != null && ms.Valid()
      modifies ms
      ensures ms.Valid()
      ensures var x := Demo.ReadPacket(reg, ms.data, old(ms.pos), size, isCompressed);
              && (x.Ok? ==> r == Ok(x.value.0) && ms.pos == x.value.1)
              && (x.Err? ==> r == Err(x.error))
    {
      var data :- ms.ReadRawBytes(size);
      if isCompressed {
        match reg.decompress(data)
        case None =>
          return Err(BadCompression);
        case Some(uncompressed) =>
          data := uncompressed;
      }
      return Ok(data);
    }

    /** Reads a whole demo file: the header, the file-info offset, then every
        top-level frame, raising tick boundaries, containers (whose contents
        are unpacked at once) and listened messages. */
    method ProcessStream(input: seq<bv8>) returns (r: Result<()>)
      modifies this
      ensures unpackUserMessages == old(unpackUserMessages)
      ensures var run := StreamRun(reg, unpackUserMessages, old(tick), input);
              && log == old(log) + run.events
              && tick == run.tick
              && (r.Ok? <==> run.failure.None?)
              && (run.failure.Some? ==> r == Err(run.failure.value))
    {
      ms := new CodedInput(input);
      var header :- ms.ReadRawBytes(8);
      if header != Magic {
        return Err(BadHeader);
      }
      var offset :- ms.ReadRawFixed32();
      ghost var tick0, l0, q := tick, log, ms.pos;
      log := log + [FileInfoOffset(offset)];
      log := log + [TickStart(tick)];
      assert log == l0 + [FileInfoOffset(offset), TickStart(tick0)];
      r := ProcessFrames();
      AppendAssoc(l0, [FileInfoOffset(offset), TickStart(tick0)], FramesFrom(reg, unpackUserMessages, input, q, tick0).events);
    }

    /** The top-level loop of processStream, from the cursor to the end of the
        stream or the first error, followed by the end of the last tick. */
    method ProcessFrames() returns (r: Result<()>)
      requires ms != null && ms.Valid()
      modifies ms, this`log, this`tick
      ensures var run := FramesFrom(reg, unpackUserMessages, ms.data, old(ms.pos), old(tick));
              && log == old(log) + run.events
              && tick == run.tick
              && (r.Ok? <==> run.failure.None?)
              && (run.failure.Some? ==> r == Err(run.failure.value))
    {
      ghost var input, start, tick0 := ms.data, ms.pos, tick;
      var atEnd := ms.IsAtEnd();
      while !atEnd
        invariant ms.Valid() && ms.data == input
        invariant atEnd <==> ms.pos == |input|
        invariant var whole := FramesFrom(reg, unpackUserMessages, input, start, tick0);
                  var rest := FramesFrom(reg, unpackUserMessages, input, ms.pos, tick);
                  && old(log) + whole.events == log + rest.events
                  && whole.tick == rest.tick
                  && whole.failure == rest.failure
        decreases |input| - ms.pos
      {
        ghost var p0, t0, l0 := ms.pos, tick, log;
        ghost var f := FrameStep(reg, unpackUserMessages, input, p0, t0);
        var done := ProcessFrame();
        if done.Err? {
          return done;
        }
        ghost var rest := FramesFrom(reg, unpackUserMessages, input, ms.pos, tick);
        assert FramesFrom(reg, unpackUserMessages, input, p0, t0).events == f.events + rest.events;
        AppendAssoc(l0, f.events, rest.events);
        atEnd := ms.IsAtEnd();
      }
      log := log + [TickEnd(tick)];
      return Ok(());
    }

    /** One top-level frame at the cursor: its header, the tick boundary when
        its tick differs from the current one, then its payload. */
    method ProcessFrame() returns (r: Result<()>)
      requires ms != null && ms.Valid()
      modifies ms, this`log, this`tick
      ensures ms.Valid()
      ensures var f := FrameStep(reg, unpackUserMessages, ms.data, old(ms.pos), old(tick));
              && log == old(log) + f.events
              && tick == f.tick
              && (r.Ok? <==> f.failure.None?)
              && (f.failure.Some? ==> r == Err(f.failure.value))
              && (r.Ok? ==> ms.pos == f.pos)
    {
      ghost var t0, l0 := tick, log;
      var h :- ReadFrameHeader();
      if h.tick != tick {
        log := log + [TickEnd(tick)];
        tick := h.tick;
        log := log + [TickStart(tick)];
      }
      assert log == l0 + TickBoundary(t0, h.tick);
      ghost var body := FrameBody(reg, unpackUserMessages, ms.data, ms.pos, h);
      r := ProcessFrameBody(h);
      AppendAssoc(l0, TickBoundary(t0, h.tick), body.events);
    }

    /** The header of the next top-level frame: its raw kind, split into the
        kind proper and the compression flag, its tick and its size. */
    method ReadFrameHeader() returns (r: Result<FrameHeader>)
      requires ms != null && ms.Valid()
      modifies ms
      ensures ms.Valid()
      ensures var x := Demo.ReadFrameHeader(ms.data, old(ms.pos));
              && (x.Ok? ==> r == Ok(x.value.0) && ms.pos == x.value.1)
              && (x.Err? ==> r == Err(x.error))
    {
      var rawKind :- ms.ReadRawVarint32();
      var isCompressed := rawKind & IsCompressed == IsCompressed;
      var kind := rawKind & !IsCompressed;
      var frameTick :- ms.ReadRawVarint32();
      var size :- ms.ReadRawVarint32();
      return Ok(FrameHeader(kind, isCompressed, frameTick, size));
    }

    /** The payload of one top-level frame of kind `kind` and `size` bytes at
        the cursor: skipped when its kind is unknown, when it is a full packet
        or when nobody listens to it; read and unpacked when it is a container;
        read, parsed and raised otherwise. */
    method ProcessFrameBody(h: FrameHeader) returns (r: Result<()>)
      requires ms != null && ms.Valid()
      modifies ms, this`log
      ensures ms.Valid()
      ensures var s := FrameBody(reg, unpackUserMessages, ms.data, old(ms.pos), h);
              && log == old(log) + s.events
              && (r.Ok? <==> s.failure.None?)
              && (s.failure.Some? ==> r == Err(s.failure.value))
              && (r.Ok? ==> ms.pos == s.pos)
    {
      if h.kind !in reg.demo {
        log := log + [UnknownKind(TopLevel, h.kind)];
        r := ms.SkipRawBytes(h.size);
      } else {
        var cls := reg.demo[h.kind];
        if IsContainer(cls) {
          r := ProcessContainer(cls, h.size, h.compressed);
        } else if cls.DemoFullPacket? {
          r := ms.SkipRawBytes(h.size);
        } else if cls in reg.listened {
          r := ProcessMessage(cls, h.size, h.compressed);
        } else {
          r := ms.SkipRawBytes(h.size);
        }
      }
    }

    /** A container frame: read, parsed, raised, then unpacked. */
    method ProcessContainer(cls: MessageClass, size: bv32, isCompressed: bool) returns (r: Result<()>)
      requires ms != null && ms.Valid()
      modifies ms, this`log
      ensures ms.Valid()
      ensures var s := ContainerBody(reg, unpackUserMessages, ms.data, old(ms.pos), cls, size, isCompressed);
              && log == old(log) + s.events
              && (r.Ok? <==> s.failure.None?)
              && (s.failure.Some? ==> r == Err(s.failure.value))
              && (r.Ok? ==> ms.pos == s.pos)
    {
      ghost var s := ContainerBody(reg, unpackUserMessages, ms.data, ms.pos, cls, size, isCompressed);
      var packet := ReadPacket(size, isCompressed);
      if packet.Err? {
        assert s == Step([], old(ms.pos), Some(packet.error));
        return Err(packet.error);
      }
      var message := Parse(reg, cls, packet.value);
      if message.Err? {
        assert s == Step([], ms.pos, Some(message.error));
        return Err(message.error);
      }
      ContainerBodyParsed(reg, unpackUserMessages, ms.data, old(ms.pos), cls, size, isCompressed, packet.value,
                          ms.pos, message.value);
      log := log + [MessageContainer(message.value.data)];
      r := ProcessEmbedded(message.value.data);
    }

    /** A listened frame: read, parsed and raised. */
    method ProcessMessage(cls: MessageClass, size: bv32, isCompressed: bool) returns (r: Result<()>)
      requires ms != null && ms.Valid()
      modifies ms, this`log
      ensures ms.Valid()
      ensures var s := MessageBody(reg, ms.data, old(ms.pos), cls, size, isCompressed);
              && log == old(log) + s.events
              && (r.Ok? <==> s.failure.None?)
              && (s.failure.Some? ==> r == Err(s.failure.value))
              && (r.Ok? ==> ms.pos == s.pos)
    {
      var packet :- ReadPacket(size, isCompressed);
      var message :- Parse(reg, cls, packet);
      log := log + [OnMessage(cls, message)];
      r := Ok(());
    }

    /** Unpacks the bytes of a container: embedded messages until the bytes
        run out or a kind of zero, raising the listened ones and, when user
        messages are unpacked, the message inside each user-message wrapper. */
    method ProcessEmbedded(data: seq<bv8>) returns (r: Result<()>)
      modifies this`log
      ensures var u := Unpack(reg, unpackUserMessages, data);
              && log == old(log) + u.events
              && (r.Ok? <==> u.failure.None?)
              && (u.failure.Some? ==> r == Err(u.failure.value))
    {
      var cs := new CodedInput(data);
      ghost var start := log;
      var atEnd := cs.IsAtEnd();
      while !atEnd
        invariant cs.Valid() && cs.data == data
        invariant atEnd <==> cs.pos == |data|
        invariant var whole := Unpack(reg, unpackUserMessages, data);
                  var rest := UnpackFrom(reg, unpackUserMessages, data, cs.pos);
                  && start + whole.events == log + rest.events
                  && whole.failure == rest.failure
        decreases |data| - cs.pos
      {
        ghost var p0, l0 := cs.pos, log;
        ghost var f := EmbeddedStep(reg, unpackUserMessages, data, p0);
        var next := ProcessSubFrame(cs);
        if next.Err? {
          return Err(next.error);
        }
        if next.value {
          // live captures end their containers with a zero kind
          break;
        }
        ghost var rest := UnpackFrom(reg, unpackUserMessages, data, cs.pos);
        assert UnpackFrom(reg, unpackUserMessages, data, p0).events == f.events + rest.events;
        AppendAssoc(l0, f.events, rest.events);
        atEnd := cs.IsAtEnd();
      }
      return Ok(());
    }

    /** One iteration of the embedded loop: the kind, and unless it is zero,
        the size and the message. The result says whether the kind was zero. */
    method ProcessSubFrame(cs: CodedInput) returns (r: Result<bool>)
      requires cs.Valid()
      modifies cs, this`log
      ensures cs.Valid()
      ensures var f := EmbeddedStep(reg, unpackUserMessages, cs.data, old(cs.pos));
              && log == old(log) + f.events
              && (r.Ok? <==> f.failure.None?)
              && (f.failure.Some? ==> r == Err(f.failure.value))
              && (r.Ok? ==> r.value == f.sentinel && cs.pos == f.pos)
    {
      var kind :- cs.ReadRawVarint32();
      if kind == 0 {
        return Ok(true);
      }
      var size :- cs.ReadRawVarint32();
      var done := ProcessEmbeddedMessage(cs, kind, size);
      if done.Err? {
        return Err(done.error);
      }
      return Ok(false);
    }

    /** One embedded message of kind `kind` and `size` bytes at the cursor:
        skipped when its kind is unknown or nobody wants it, otherwise read,
        parsed and raised when listened, and its inner user message raised
        when user messages are unpacked. */
    method ProcessEmbeddedMessage(cs: CodedInput, kind: bv32, size: bv32) returns (r: Result<()>)
      requires cs.Valid()
      modifies cs, this`log
      ensures cs.Valid()
      ensures var s := EmbeddedBody(reg, unpackUserMessages, cs.data, old(cs.pos), kind, size);
              && log == old(log) + s.events
              && (r.Ok? <==> s.failure.None?)
              && (s.failure.Some? ==> r == Err(s.failure.value))
              && (r.Ok? ==> cs.pos == s.pos)
    {
      if kind !in reg.embed {
        log := log + [UnknownKind(Embedded, kind)];
        var _ :- cs.SkipRawBytes(size);
      } else {
        var cls := reg.embed[kind];
        var listened := cls in reg.listened;
        var unwrap := unpackUserMessages && cls.UserMessage?;
        if listened || unwrap {
          var bytes :- cs.ReadRawBytes(size);
          var subMessage :- Parse(reg, cls, bytes);
          if listened {
            log := log + [OnMessage(cls, subMessage)];
          }
          if unwrap {
            if subMessage.msgType !in reg.usermsg {
              log := log + [UnknownKind(UserMessages, subMessage.msgType)];
            } else {
              var umClass := reg.usermsg[subMessage.msgType];
              var userMessage :- Parse(reg, umClass, subMessage.msgData);
              log := log + [OnMessage(umClass, userMessage)];
            }
          }
        } else {
          var _ :- cs.SkipRawBytes(size);
        }
      }
      return Ok(());
    }

    /** Skips bytes of the stream being read. */
    method SkipBytes(numBytes: bv32) returns (r: Result<()>)
      requires ms != null && ms.Valid()
      modifies ms
      ensures ms.Valid()
      ensures var x := Skip(ms.data, old(ms.pos), numBytes);
              && (x.Ok? ==> r == Ok(()) && ms.pos == x.value)
              && (x.Err? ==> r == Err(x.error))
    {
      r := ms.SkipRawBytes(numBytes);
    }
  }
}

=== FILE: wire.dfy ===
/** The byte-level layer the demo reader stands on: a forward-only cursor over a
    byte sequence with the reads the protocol-buffers CodedInputStream offers
    (raw bytes, skip, little-endian fixed32, base-128 varint), each given as a
    pure function of the bytes and the position, and a class that advances a
    position through them. */
module Wire {

  datatype Option<+T> = None | Some(value: T)

  /** The ways a read can fail; each ends the whole decode pass. */
  datatype Error =
    | Truncated        // fewer bytes remain than the read needs
    | MalformedVarint  // ten varint bytes, all with the continuation bit set
    | NegativeSize     // a length that is negative as a 32-bit Java int
    | BadHeader        // the first eight bytes are not the demo magic
    | BadCompression   // the compressed payload does not decompress
    | BadMessage       // the payload does not parse as the expected message

  datatype Result<+T> = Ok(value: T) | Err(error: Error) {
    predicate IsFailure() { Err? }
    function PropagateFailure<U>(): Result<U> requires Err? { Err(error) }
    function Extract(): T requires Ok? { value }
  }

  /** A Java int holding this bit pattern is negative. */
  predicate IsNegative(x: bv32) { x & 0x8000_0000 != 0 }

  /** Reads the varint whose first byte is at `pos`, from its `i`-th byte on:
      the value those bytes encode, base 128 with the least significant group
      first, cut to 32 bits, and the position just past the last byte. The cut
      keeps the first five groups (the fifth only its low four bits), so bytes
      six to ten are read and add nothing; a tenth byte with the continuation
      bit set makes the varint malformed. */
  function VarintFrom(data: seq<bv8>, pos: nat, i: nat): (r: Result<(bv32, nat)>)
    requires i <= 10
    decreases 10 - i
    ensures r.Ok? ==> pos + i < r.value.1 <= pos + 10 && r.value.1 <= |data|
    ensures r.Ok? ==> data[r.value.1 - 1] & 0x80 == 0
  {
    if i == 10 then Err(MalformedVarint)
    else if pos + i >= |data| then Err(Truncated)
    else
      var b := data[pos + i];
      var low := (b & 0x7F) as bv32;
      if b & 0x80 == 0 then Ok((low, pos + i + 1))
      else
        var (high, end) :- VarintFrom(data, pos, i + 1);
        Ok((low | (high << 7), end))
  }

  /** readRawVarint32: the value and the position just past the varint. */
  function ReadVarint32(data: seq<bv8>, pos: nat): (r: Result<(bv32, nat)>)
    ensures r.Ok? ==> pos < r.value.1 <= pos + 10 && r.value.1 <= |data|
  {
    VarintFrom(data, pos, 0)
  }

  /** readFixed32: four bytes, least significant first. */
  function ReadFixed32(data: seq<bv8>, pos: nat): (r: Result<(bv32, nat)>)
    ensures r.Ok? <==> pos + 4 <= |data|
    ensures r.Ok? ==> r.value.1 == pos + 4
  {
    if pos + 4 > |data| then Err(Truncated)
    else Ok((data[pos] as bv32
             | ((data[pos + 1] as bv32) << 8)
             | ((data[pos + 2] as bv32) << 16)
             | ((data[pos + 3] as bv32) << 24), pos + 4))
  }

  /** The position after skipping `size` bytes (skipRawBytes). */
  function Skip(data: seq<bv8>, pos: nat, size: bv32): (r: Result<nat>)
    ensures r.Ok? <==> !IsNegative(size) && pos + size as int <= |data|
    ensures r.Ok? ==> r.value == pos + size as int
    ensures r.Err? ==> r.error == (if IsNegative(size) then NegativeSize else Truncated)
  {
    if IsNegative(size) then Err(NegativeSize)
    else if pos + size as int > |data| then Err(Truncated)
    else Ok(pos + size as int)
  }

  /** The `size` bytes at `pos` and the position after them (readRawBytes). */
  function ReadBytes(data: seq<bv8>, pos: nat, size: bv32): (r: Result<(seq<bv8>, nat)>)
    ensures r.Ok? <==> Skip(data, pos, size).Ok?
    ensures r.Err? ==> r.error == Skip(data, pos, size).error
    ensures r.Ok? ==>
              && r.value.1 == Skip(data, pos, size).value
              && |r.value.0| == size as int
              && r.value.0 == data[pos..r.value.1]
  {
    var end :- Skip(data, pos, size);
    Ok((data[pos..end], end))
  }

  /** The canonical varint encoding of a 32-bit word (writeRawVarint32). */
  function EncodeVarint32(v: bv32): (e: seq<bv8>)
    ensures 1 <= |e|
    decreases v as int
  {
    if v & !0x7F == 0 then [(v & 0x7F) as bv8]
    else [((v & 0x7F) | 0x80) as bv8] + EncodeVarint32(v >> 7)
  }

  /** The little-endian encoding of a 32-bit word (writeFixed32). */
  function EncodeFixed32(v: bv32): (e: seq<bv8>)
    ensures |e| == 4
  {
    [(v & 0xFF) as bv8, ((v >> 8) & 0xFF) as bv8, ((v >> 16) & 0xFF) as bv8, ((v >> 24) & 0xFF) as bv8]
  }

  /** `v` has no bits left after dropping `n` seven-bit groups. */
  predicate FitsGroups(v: bv32, n: nat)
  {
    if n == 0 then v == 0 else FitsGroups(v >> 7, n - 1)
  }

  /** Every 32-bit word fits in five groups. */
  lemma FitsFiveGroups(v: bv32)
    ensures FitsGroups(v, 5)
  {
    assert FitsGroups(v >> 7 >> 7 >> 7 >> 7 >> 7, 0);
    assert FitsGroups(v >> 7 >> 7 >> 7 >> 7, 1);
    assert FitsGroups(v >> 7 >> 7 >> 7, 2);
    assert FitsGroups(v >> 7 >> 7, 3);
  }

  /** Decoding an encoded varint that starts `i` bytes into a read, when the
      word fits in the `n` groups left of the ten a read allows. */
  lemma {:induction false} VarintFromEncoded(data: seq<bv8>, pos: nat, i: nat, v: bv32, n: nat)
    requires FitsGroups(v, n) && i + n <= 5
    requires pos + i + |EncodeVarint32(v)| <= |data|
    requires data[pos + i .. pos + i + |EncodeVarint32(v)|] == EncodeVarint32(v)
    ensures VarintFrom(data, pos, i) == Ok((v, pos + i + |EncodeVarint32(v)|))
    decreases n
  {
    var e := EncodeVarint32(v);
    assert data[pos + i] == e[0];
    if v & !0x7F == 0 {
      assert e == [(v & 0x7F) as bv8];
      LastGroup(data, pos, i, v);
    } else {
      var tail := EncodeVarint32(v >> 7);
      assert e == [((v & 0x7F) | 0x80) as bv8] + tail;
      assert data[pos + i + 1 .. pos + i + 1 + |tail|] == e[1..];
      VarintFromEncoded(data, pos, i + 1, v >> 7, n - 1);
      ContinuedGroup(data, pos, i, v, pos + i + |e|);
    }
  }

  /** One step of the decoder on the last byte of an encoding. */
  lemma LastGroup(data: seq<bv8>, pos: nat, i: nat, v: bv32)
    requires i < 10 && pos + i < |data|
    requires v & !0x7F == 0 && data[pos + i] == (v & 0x7F) as bv8
    ensures VarintFrom(data, pos, i) == Ok((v, pos + i + 1))
  {
    ByteGroups(v);
  }

  /** One step of the decoder on a continued byte of an encoding. */
  lemma ContinuedGroup(data: seq<bv8>, pos: nat, i: nat, v: bv32, end: nat)
    requires i < 10 && pos + i < |data|
    requires data[pos + i] == ((v & 0x7F) | 0x80) as bv8
    requires VarintFrom(data, pos, i + 1) == Ok((v >> 7, end))
    ensures VarintFrom(data, pos, i) == Ok((v, end))
  {
    ByteGroups(v);
  }

  /** The bit arithmetic of one encoded byte: the last byte carries the whole
      word; a continued byte carries the low seven bits, the rest follows. */
  lemma ByteGroups(v: bv32)
    ensures v & !0x7F == 0 ==> ((v & 0x7F) as bv8 & 0x7F) as bv32 == v && (v & 0x7F) as bv8 & 0x80 == 0
    ensures var b := ((v & 0x7F) | 0x80) as bv8;
            && b & 0x80 != 0
            && ((b & 0x7F) as bv32) | ((v >> 7) << 7) == v
  {
  }

  /** Varint round trip: reading back an encoded word gives the word and
      consumes exactly its encoding, whatever follows it. */
  lemma VarintRoundTrip(v: bv32, rest: seq<bv8>)
    ensures ReadVarint32(EncodeVarint32(v) + rest, 0) == Ok((v, |EncodeVarint32(v)|))
  {
    var data := EncodeVarint32(v) + rest;
    assert data[0 .. |EncodeVarint32(v)|] == EncodeVarint32(v);
    FitsFiveGroups(v);
    VarintFromEncoded(data, 0, 0, v, 5);
  }

  /** Reading a varint where `e`, the encoding of `v`, sits, anywhere in the
      bytes. */
  lemma VarintAt(data: seq<bv8>, pos: nat, v: bv32, e: seq<bv8>)
    requires e == EncodeVarint32(v)
    requires pos + |e| <= |data| && data[pos .. pos + |e|] == e
    ensures ReadVarint32(data, pos) == Ok((v, pos + |e|))
  {
    FitsFiveGroups(v);
    VarintFromEncoded(data, pos, 0, v, 5);
  }

  /** Fixed32 round trip. */
  lemma Fixed32RoundTrip(v: bv32, rest: seq<bv8>)
    ensures ReadFixed32(EncodeFixed32(v) + rest, 0) == Ok((v, 4))
  {
  }

  /** A forward-only reader over a byte sequence (CodedInputStream). */
  class CodedInput {
    const data: seq<bv8>
    var pos: nat

    ghost predicate Valid()
      reads this
    {
      pos <= |data|
    }

    constructor (data: seq<bv8>)
      ensures Valid() && this.data == data && pos == 0
    {
      this.data := data;
      pos := 0;
    }

    method IsAtEnd() returns (atEnd: bool)
      requires Valid()
      ensures atEnd <==> pos == |data|
    {
      atEnd := pos == |data|;
    }

    method ReadRawVarint32() returns (r: Result<bv32>)
      requires Valid()
      modifies this
      ensures Valid()
      ensures var x := ReadVarint32(data, old(pos));
              && (x.Ok? ==> r == Ok(x.value.0) && pos == x.value.1)
              && (x.Err? ==> r == Err(x.error))
    {
      var x := ReadVarint32(data, pos);
      if x.Err? {
        return Err(x.error);
      }
      pos := x.value.1;
      r := Ok(x.value.0);
    }

    method ReadRawFixed32() returns (r: Result<bv32>)
      requires Valid()
      modifies this
      ensures Valid()
      ensures var x := ReadFixed32(data, old(pos));
              && (x.Ok? ==> r == Ok(x.value.0) && pos == x.value.1)
              && (x.Err? ==> r == Err(x.error))
    {
      var x := ReadFixed32(data, pos);
      if x.Err? {
        return Err(x.error);
      }
      pos := x.value.1;
      r := Ok(x.value.0);
    }

    method ReadRawBytes(size: bv32) returns (r: Result<seq<bv8>>)
      requires Valid()
      modifies this
      ensures Valid()
      ensures var x := ReadBytes(data, old(pos), size);
              && (x.Ok? ==> r == Ok(x.value.0) && pos == x.value.1)
              && (x.Err? ==> r == Err(x.error))
    {
      var x := ReadBytes(data, pos, size);
      if x.Err? {
        return Err(x.error);
      }
      pos := x.value.1;
      r := Ok(x.value.0);
    }

    method SkipRawBytes(size: bv32) returns (r: Result<()>)
      requires Valid()
      modifies this
      ensures Valid()
      ensures var x := Skip(data, old(pos), size);
              && (x.Ok? ==> r == Ok(()) && pos == x.value)
              && (x.Err? ==> r == Err(x.error))
    {
      var x := Skip(data, pos, size);
      if x.Err? {
        return Err(x.error);
      }
      pos := x.value;
      r := Ok(());
    }
  }
}
